=== FILE: README.md ===
# Noto settings screen: backup import, export and setting toggles

This project models the settings screen's view model of Noto, a notes app for
Android. The model covers three parts of that view model:

- **Import.** A decoded backup document is merged into the live store. Each
  folder, note, label and note-label link is re-created under a new identifier.
  Three tables map the document's identifiers to the store's identifiers: one
  for folders, one for notes, one for labels. A general folder is merged into
  the live general folder, and the settings are overwritten last.
- **Export.** The current contents of the four tables and the settings are
  packed into one backup document.
- **Toggles.** Each boolean setting (notes count, do-not-disturb, screen on,
  full screen, biometric unlock) is written back as the negation of the value
  the screen currently shows.

Layout:

- `entities.dfy` (module `Entities`): folders, notes, labels, note-label links,
  the settings record and the backup document (`NotoData`), as values.
- `store.dfy` (module `Store`): the repositories as one value, `Db`.
  - Each table keeps its rows in identifier order.
  - Each table has one auto-increment counter, and identifiers are never reused.
  - A write log records every repository call, with its argument and, for a
    create, the identifier it returned.
  - Each repository call is a function on `Db`, with lemmas about what it keeps.
- `repositories.dfy` (module `Repositories`): class `LocalStore`, the same
  store updated in place. Each method is specified by the matching `Store`
  function.
- `import.dfy` (module `Import`): the import as functions on `Db`.
  - Each loop is a function over a prefix of its list: folders, notes, labels,
    links.
  - `ImportData` runs the four loops and then the settings overwrite.
  - `Export` builds the backup document from a store.
- `folder_phase.dfy`, `note_label_phases.dfy`, `link_phase.dfy`: properties
  of each loop.
- `import_properties.dfy` (module `ImportProperties`): properties of the whole
  import and of export followed by import.
- `settings_view_model.dfy` (module `ViewModel`): class `SettingsViewModel`.
  - It holds the shown flag values and the toggle, export and import methods.
  - The import is written as the source's loops. Each loop is proved equal to
    its `Import` function.

## Model

| member | source | states |
|---|---|---|
| Entities.SetFlag | app/src/main/java/com/noto/app/settings/SettingsViewModel.kt:63-77 | writing one boolean setting sets that flag to the value given and leaves every other flag and every other settings field unchanged |
| Entities.ToggleTwice | app/src/main/java/com/noto/app/settings/SettingsViewModel.kt:63-77 | a toggle changes the flag, and a second toggle from the value just written restores the original settings |
| Store.CreateFolderKeeps | app/src/main/java/com/noto/app/settings/SettingsViewModel.kt:100 | createFolder appends exactly one identifier to the folder column; on a well-formed store that identifier is fresh, the store stays well formed, and references stay intact |
| Store.UpdateFolderKeeps | app/src/main/java/com/noto/app/settings/SettingsViewModel.kt:97 | updateFolder keeps the folder identifiers; it puts the record in place when its identifier exists and keeps every row with another identifier; no other record appears; well-formedness and references are kept |
| Store.CreateNoteKeeps | app/src/main/java/com/noto/app/settings/SettingsViewModel.kt:106 | createNote appends one fresh identifier and keeps the store well formed; references stay intact when the note's folder exists |
| Store.CreateLabelKeeps | app/src/main/java/com/noto/app/settings/SettingsViewModel.kt:111 | createLabel appends one fresh identifier and keeps the store well formed; references stay intact when the label's folder exists |
| Store.CreateNoteLabelKeeps | app/src/main/java/com/noto/app/settings/SettingsViewModel.kt:117 | createNoteLabel keeps the store well formed, and keeps references intact when both the note and the label exist |
| Repositories.LocalStore.CreateFolder | app/src/main/java/com/noto/app/settings/SettingsViewModel.kt:100 | the in-place create leaves the store that Store.CreateFolder describes and returns the same identifier; the store stays well formed |
| Repositories.LocalStore.UpdateFolder | app/src/main/java/com/noto/app/settings/SettingsViewModel.kt:97 | the in-place update leaves the store that Store.UpdateFolder describes; the store stays well formed |
| Repositories.LocalStore.CreateNote | app/src/main/java/com/noto/app/settings/SettingsViewModel.kt:106 | the in-place create leaves the store that Store.CreateNote describes and returns the same identifier |
| Repositories.LocalStore.CreateLabel | app/src/main/java/com/noto/app/settings/SettingsViewModel.kt:111 | the in-place create leaves the store that Store.CreateLabel describes and returns the same identifier |
| Repositories.LocalStore.CreateNoteLabel | app/src/main/java/com/noto/app/settings/SettingsViewModel.kt:117 | the in-place create leaves the store that Store.CreateNoteLabel describes and returns the same identifier |
| Repositories.LocalStore.UpdateConfig | app/src/main/java/com/noto/app/settings/SettingsViewModel.kt:119 | the settings record is overwritten, the call is logged, and nothing else changes |
| Repositories.LocalStore.UpdateFlag | app/src/main/java/com/noto/app/settings/SettingsViewModel.kt:64 | one boolean setting is overwritten, the call is logged, and nothing else changes |
| Import.Export | app/src/main/java/com/noto/app/settings/SettingsViewModel.kt:79-87 | the document holds exactly the store's folders, notes, labels, links and settings, in that field order |
| FolderPhase.FolderCalls | app/src/main/java/com/noto/app/settings/SettingsViewModel.kt:95-103 | the folder loop never fails and makes exactly one repository call per document folder after the existing log; the folder table has an entry for exactly the document's folder identifiers |
| FolderPhase.FolderWrites | app/src/main/java/com/noto/app/settings/SettingsViewModel.kt:95-103 | call k is an update of folder k when it is general, and then its table entry is GeneralFolderId; otherwise call k is a create of its id-0 copy, and its table entry is the returned identifier, above the counter the import started from (document identifiers distinct) |
| FolderPhase.FolderArgs | app/src/main/java/com/noto/app/settings/SettingsViewModel.kt:95-103 | for every document, repeated identifiers included: call k is the update of folder k when it is general, and otherwise a create of its id-0 copy returning an identifier above the counter the import started from |
| FolderPhase.FolderFrame | app/src/main/java/com/noto/app/settings/SettingsViewModel.kt:95-103 | the folder loop touches only the folder table and adds one row per non-general document folder |
| FolderPhase.FoldersKept | app/src/main/java/com/noto/app/settings/SettingsViewModel.kt:95-103 | the folder loop keeps every live folder row in its place, unchanged, unless a general document folder carries its identifier; the table never shrinks |
| FolderPhase.FolderRows | app/src/main/java/com/noto/app/settings/SettingsViewModel.kt:95-103 | the folder loop keeps the store well formed, the general folder included, and keeps references intact |
| FolderPhase.FolderTargets | app/src/main/java/com/noto/app/settings/SettingsViewModel.kt:95-103 | on a well-formed store, every folder table entry names a folder of the store, and is GeneralFolderId or an identifier no folder had before |
| FolderPhase.LastFolderIdGrows | app/src/main/java/com/noto/app/settings/SettingsViewModel.kt:99-101 | the folder counter never decreases during the folder loop |
| FolderPhase.OnlyGeneralMapsToGeneral | app/src/main/java/com/noto/app/settings/SettingsViewModel.kt:96-101 | on a well-formed store with distinct document folder identifiers, only a general document folder is mapped to GeneralFolderId |
| FolderPhase.FoldersLanded | app/src/main/java/com/noto/app/settings/SettingsViewModel.kt:95-103 | after the folder loop, every document folder is in the store under its mapped identifier, with all other fields as in the document (general folder carrying GeneralFolderId) |
| NoteLabelPhases.NoteCalls | app/src/main/java/com/noto/app/settings/SettingsViewModel.kt:104-108 | the note loop completes exactly when every note's folder is in the folder table, with one create per note; otherwise it stops at the first note with a missing folder, reports its position and key, and the earlier creates stay |
| NoteLabelPhases.NoteIdsCover | app/src/main/java/com/noto/app/settings/SettingsViewModel.kt:107 | after a complete note loop the note table has an entry for exactly the document's note identifiers |
| NoteLabelPhases.NoteWrites | app/src/main/java/com/noto/app/settings/SettingsViewModel.kt:104-108 | when the document's note identifiers are distinct, every note reached is created as the copy with identifier 0 and its folder taken from the folder table, and the note table maps it to the returned identifier |
| NoteLabelPhases.NoteArgs | app/src/main/java/com/noto/app/settings/SettingsViewModel.kt:104-108 | for every document, repeated identifiers included: the call for each note reached is a create of the copy with identifier 0 and its folder taken from the folder table, returning the next note identifier |
| NoteLabelPhases.NotesStored | app/src/main/java/com/noto/app/settings/SettingsViewModel.kt:104-108 | the note loop keeps the existing rows and appends one row per note reached, in document order: the document note with the next note identifier and its folder re-keyed, all other fields as in the document |
| NoteLabelPhases.NoteIdsNumbered | app/src/main/java/com/noto/app/settings/SettingsViewModel.kt:107 | when the document's note identifiers are distinct, the note table maps the k-th note reached to the k-th identifier after the starting counter |
| NoteLabelPhases.NoteFrame | app/src/main/java/com/noto/app/settings/SettingsViewModel.kt:104-108 | the note loop touches only the note table and adds one row per call it logs |
| NoteLabelPhases.NoteRows | app/src/main/java/com/noto/app/settings/SettingsViewModel.kt:104-108 | the note loop keeps the store well formed, keeps references intact when the folder table names existing folders, and every note table entry names a stored note |
| NoteLabelPhases.NotesStopped | app/src/main/java/com/noto/app/settings/SettingsViewModel.kt:105 | once a folder lookup has failed, the remaining notes change nothing |
| NoteLabelPhases.LabelCalls | app/src/main/java/com/noto/app/settings/SettingsViewModel.kt:109-113 | the label loop completes exactly when every label's folder is in the folder table, with one create per label; otherwise it stops at the first label with a missing folder, reports it, and the earlier creates stay |
| NoteLabelPhases.LabelIdsCover | app/src/main/java/com/noto/app/settings/SettingsViewModel.kt:112 | after a complete label loop the label table has an entry for exactly the document's label identifiers |
| NoteLabelPhases.LabelWrites | app/src/main/java/com/noto/app/settings/SettingsViewModel.kt:109-113 | when the document's label identifiers are distinct, every label reached is created as the copy with identifier 0 and its folder taken from the folder table, and the label table maps it to the returned identifier |
| NoteLabelPhases.LabelArgs | app/src/main/java/com/noto/app/settings/SettingsViewModel.kt:109-113 | for every document, repeated identifiers included: the call for each label reached is a create of the copy with identifier 0 and its folder taken from the folder table, returning the next label identifier |
| NoteLabelPhases.LabelsStored | app/src/main/java/com/noto/app/settings/SettingsViewModel.kt:109-113 | the label loop keeps the existing rows and appends one row per label reached, in document order: the document label with the next label identifier and its folder re-keyed, all other fields as in the document |
| NoteLabelPhases.LabelIdsNumbered | app/src/main/java/com/noto/app/settings/SettingsViewModel.kt:112 | when the document's label identifiers are distinct, the label table maps the k-th label reached to the k-th identifier after the starting counter |
| NoteLabelPhases.LabelFrame | app/src/main/java/com/noto/app/settings/SettingsViewModel.kt:109-113 | the label loop touches only the label table and adds one row per call it logs |
| NoteLabelPhases.LabelRows | app/src/main/java/com/noto/app/settings/SettingsViewModel.kt:109-113 | the label loop keeps the store well formed, keeps references intact when the folder table names existing folders, and every label table entry names a stored label |
| NoteLabelPhases.LabelsStopped | app/src/main/java/com/noto/app/settings/SettingsViewModel.kt:110 | once a folder lookup has failed, the remaining labels change nothing |
| LinkPhase.LinkCalls | app/src/main/java/com/noto/app/settings/SettingsViewModel.kt:114-118 | the link loop completes exactly when both ends of every link are in their tables, creating each link with identifier 0 and both ends re-keyed, each create returning the next link identifier; otherwise it stops at the first unresolved link and reports the note end if that is missing, else the label end |
| LinkPhase.LinkFrame | app/src/main/java/com/noto/app/settings/SettingsViewModel.kt:114-118 | the link loop touches only the link table and adds one row per create |
| LinkPhase.LinksStored | app/src/main/java/com/noto/app/settings/SettingsViewModel.kt:114-118 | the link loop keeps the existing rows and appends one row per link reached, in document order: the document link with the next link identifier and both ends re-keyed through the note and label tables |
| LinkPhase.LinkRows | app/src/main/java/com/noto/app/settings/SettingsViewModel.kt:114-118 | the link loop keeps the store well formed, and keeps references intact when both tables name stored rows |
| LinkPhase.LinksStopped | app/src/main/java/com/noto/app/settings/SettingsViewModel.kt:115-116 | once a lookup has failed, the remaining links change nothing |
| ImportProperties.ImportSucceedsIff | app/src/main/java/com/noto/app/settings/SettingsViewModel.kt:89-121 | the import runs to the end if and only if every reference in the document names a record of the same document |
| ImportProperties.NotesResolveIff | app/src/main/java/com/noto/app/settings/SettingsViewModel.kt:104-108 | the note loop completes if and only if every note's folder is a document folder |
| ImportProperties.LabelsResolveIff | app/src/main/java/com/noto/app/settings/SettingsViewModel.kt:109-113 | the label loop completes if and only if every label's folder is a document folder |
| ImportProperties.LinksResolveIff | app/src/main/java/com/noto/app/settings/SettingsViewModel.kt:114-118 | after complete note and label loops, the link loop completes if and only if both ends of every link are document records |
| ImportProperties.ImportStops | app/src/main/java/com/noto/app/settings/SettingsViewModel.kt:104-119 | a failed import reports the first dangling reference in dependency order, with its position and key: every record of the earlier lists, and every earlier record of its own list, resolves; every call before it stays logged, no later table is touched, and the settings are not written |
| ImportProperties.ImportSucceeds | app/src/main/java/com/noto/app/settings/SettingsViewModel.kt:89-121 | a successful import makes one call per document record plus the settings overwrite, which is the last call; the store's settings are the document's; it adds one folder per non-general folder and one row per note, label and link |
| ImportProperties.ImportKeepsStore | app/src/main/java/com/noto/app/settings/SettingsViewModel.kt:89-121 | whether it succeeds or stops, the import keeps the store well formed (the general folder included) and keeps references intact |
| ImportProperties.ImportFolderRecords | app/src/main/java/com/noto/app/settings/SettingsViewModel.kt:95-103 | in a successful import, folder k's call is at position k after the old log: an update for a general folder mapped to GeneralFolderId, otherwise a create of the id-0 copy mapped to the returned identifier |
| ImportProperties.ImportNoteRecords | app/src/main/java/com/noto/app/settings/SettingsViewModel.kt:104-108 | in a successful import, note k's call follows the folder calls and creates the copy with identifier 0 and the re-keyed folder; the note table maps it to the returned identifier |
| ImportProperties.ImportLabelRecords | app/src/main/java/com/noto/app/settings/SettingsViewModel.kt:109-113 | in a successful import, label k's call follows the note calls and creates the copy with identifier 0 and the re-keyed folder; the label table maps it to the returned identifier |
| ImportProperties.ImportLinkRecords | app/src/main/java/com/noto/app/settings/SettingsViewModel.kt:114-118 | in a successful import, link k's call follows the label calls and creates the copy with identifier 0 whose note and label are re-keyed through their tables |
| ImportProperties.ImportStoresFolders | app/src/main/java/com/noto/app/settings/SettingsViewModel.kt:95-103 | on a well-formed store, whether the import succeeds or stops, every document folder is in the store under its mapped identifier with its other fields as in the document (distinct folder identifiers, general folder recognised by its reserved identifier) |
| ImportProperties.ImportKeepsFolders | app/src/main/java/com/noto/app/settings/SettingsViewModel.kt:89-121 | whether the import succeeds or stops, every live folder row stays in its place, unchanged, unless a general document folder carries its identifier |
| ImportProperties.ImportStoresNotes | app/src/main/java/com/noto/app/settings/SettingsViewModel.kt:104-108 | a successful import keeps the old notes and appends every document note in order, with the next note identifier and its folder re-keyed through the folder table; with distinct note identifiers the note table maps each to its new identifier |
| ImportProperties.ImportStoresLabels | app/src/main/java/com/noto/app/settings/SettingsViewModel.kt:109-113 | a successful import keeps the old labels and appends every document label in order, with the next label identifier and its folder re-keyed through the folder table; with distinct label identifiers the label table maps each to its new identifier |
| ImportProperties.ImportStoresLinks | app/src/main/java/com/noto/app/settings/SettingsViewModel.kt:114-118 | a successful import keeps the old links and appends every document link in order, with the next link identifier and both ends re-keyed through the note and label tables |
| ImportProperties.LogChain | app/src/main/java/com/noto/app/settings/SettingsViewModel.kt:89-121 | in a successful import, the log after each loop is a prefix of the final log, longer by that loop's record count |
| ImportProperties.ExportImport | app/src/main/java/com/noto/app/settings/SettingsViewModel.kt:79-121 | exporting a well-formed, consistent store gives a document with distinct folder, note and label identifiers and no dangling reference; importing it into any store succeeds and takes its settings. The target's note, label and link rows stay as a prefix; each target folder row stays in place unless an exported general folder carries its identifier. Every exported note, label and link is appended in order, equal to the exported record up to the renumbering the identifier tables record. On a well-formed target, with the general folder recognised by its reserved identifier, every exported folder is in the store under its mapped identifier |
| ViewModel.SettingsViewModel.constructor | app/src/main/java/com/noto/app/settings/SettingsViewModel.kt:36-55 | before any value arrives, the shown flags are the streams' starting values: notes count, screen on and full screen shown on; do-not-disturb and biometric unlock shown off |
| ViewModel.SettingsViewModel.Observe | app/src/main/java/com/noto/app/settings/SettingsViewModel.kt:36-55 | once the streams deliver, every shown flag equals the stored one |
| ViewModel.SettingsViewModel.Toggle | app/src/main/java/com/noto/app/settings/SettingsViewModel.kt:63-133 | each toggle (toggleShowNotesCount through toggleFullScreen, and toggleIsBioAuthEnabled) writes the negation of the shown value through the repository; when the screen is in sync the stored flag is flipped and every other flag is unchanged |
| ViewModel.SettingsViewModel.ExportJson | app/src/main/java/com/noto/app/settings/SettingsViewModel.kt:79-87 | the document is the store's current tables and settings; from a well-formed, consistent store it has distinct folder, note and label identifiers and no dangling reference |
| ViewModel.SettingsViewModel.ImportJson | app/src/main/java/com/noto/app/settings/SettingsViewModel.kt:89-121 | the in-place import leaves exactly the store ImportData describes and returns its error; it fails exactly when the document has a dangling reference, and it keeps the store well formed and references intact |
| ViewModel.SettingsViewModel.CopyFolders | app/src/main/java/com/noto/app/settings/SettingsViewModel.kt:95-103 | the folder loop over the store leaves the store and folder table that ImportFolders describes |
| ViewModel.SettingsViewModel.CopyNotes | app/src/main/java/com/noto/app/settings/SettingsViewModel.kt:104-108 | the note loop leaves the store, note table and error that ImportNotes describes |
| ViewModel.SettingsViewModel.CopyLabels | app/src/main/java/com/noto/app/settings/SettingsViewModel.kt:109-113 | the label loop leaves the store, label table and error that ImportLabels describes |
| ViewModel.SettingsViewModel.CopyLinks | app/src/main/java/com/noto/app/settings/SettingsViewModel.kt:114-118 | the link loop leaves the store and error that ImportLinks describes |

## Left out

- JSON encoding and decoding of the backup document, and the serializer's configuration (SettingsViewModel.kt:161-170). The model starts from the decoded `NotoData` value and ends with it. A malformed document is not modelled.
- Coroutine dispatching, `viewModelScope.launch` and the `stateIn`/`shareIn` streams. Each operation runs to completion in one step. Asynchronous delivery of stored values to the screen is the separate `Observe` step.
- The theme, font, language, vault passcode, vault timeout and main interface streams. Also left out are `setVaultPasscode` (it needs the passcode hash, which is not part of this model), `setVaultTimeout`, `setWhatsNewTab`, `updateLastVersion` (it needs the release version constant, which is not part of this model), `setMainInterfaceId`, `updateTheme`, `updateFont` and `updateLanguage`. All of these are single-field writes or screen state outside the import, export and toggles.
- The definition of `isGeneral` is not part of this model; it is a parameter of the import. `GeneralFolderId` is fixed at 1 in `Entities`; the proofs use only that it is positive, which the well-formedness of the folder column needs.
- The storage engine is not part of this model.
  - A create assigns the counter plus one.
  - An update of an identifier that has no row changes nothing.
  - Creates with a preset identifier are not modelled, because the import always passes identifier 0.
- Failure model: a map lookup on a missing key throws in the source. The model returns the dangling reference as an error value instead. Propagation of that exception through the coroutine is not modelled.
- Atomicity: the code opens no transaction around the import, so a failed import keeps every write made before the failing record. The model follows the code.
- Repository return type: `createNote` and `createLabel` return the new identifier, as the import's call sites use it. The older interfaces in app/src/main/java/com/noto/app/domain/repository/ declare them without a result.
- Enumerations (colours, layouts, sorting, theme, font, language, vault timeout) are kept as ordinals. Folders and notes carry a reduced set of attributes.
- ImportFolderRecords: the per-record statement assumes distinct document folder identifiers. With duplicates, the later folder's table entry wins; the functions compute that, but no lemma states it.
- ImportNoteRecords: the per-record statement assumes distinct document note identifiers.
- ImportLabelRecords: the per-record statement assumes distinct document label identifiers.
- FolderWrites: the table entries are stated for distinct document folder identifiers only, since with duplicates the later folder's entry wins; FolderArgs states the calls for every document.
- NoteWrites: the table entries are stated for distinct document note identifiers only, for the same reason; NoteArgs and NotesStored state the calls and rows for every document.
- LabelWrites: the table entries are stated for distinct document label identifiers only, for the same reason; LabelArgs and LabelsStored state the calls and rows for every document.
- ImportStoresFolders: it assumes distinct document folder identifiers, and that `isGeneral` holds only for a folder carrying `GeneralFolderId`, as FoldersLanded does.
- ExportImport: the folder clause needs a well-formed target and `isGeneral` holding only for the folder carrying `GeneralFolderId`, as FoldersLanded does.
- FoldersLanded: it assumes that `isGeneral` holds only for a folder carrying `GeneralFolderId`. Otherwise the update writes the row carrying that folder's own identifier, if there is one, and leaves the general folder's row as it was.
- Toggle: the source's five toggle functions are one method with the flag as a parameter.

=== FILE: entities.dfy ===
/**
 * The entities of Noto's data layer as values: folders, notes, labels,
 * note-label links, the settings record, and the backup document that
 * bundles them (NotoData).
 */
module Entities {

  datatype Option<+T> = None | Some(value: T)

  /** Identifier of the general folder, the one folder every installation has. */
  const GeneralFolderId: int := 1

  /** A folder. Identifier 0 means "not yet stored, let the store assign one". */
  datatype Folder = Folder(
    id: int,
    title: string,
    color: nat,
    position: int,
    layout: nat,
    sortingType: nat,
    sortingOrder: nat,
    isShowNoteCreationDate: bool)

  /** A note; folderId refers to the folder that owns it. */
  datatype Note = Note(
    id: int,
    folderId: int,
    title: string,
    body: string,
    position: int,
    isStarred: bool,
    isArchived: bool,
    creationDate: int,
    reminderDate: Option<int>)

  /** A label; folderId refers to the folder it belongs to. */
  datatype Label = Label(id: int, folderId: int, title: string, position: int)

  /** A link between a note and a label. */
  datatype NoteLabel = NoteLabel(id: int, noteId: int, labelId: int)

  /** The process-wide settings record. Enumerations are kept as their ordinals. */
  datatype Settings = Settings(
    theme: nat,
    font: nat,
    language: nat,
    isShowNotesCount: bool,
    isDoNotDisturb: bool,
    isScreenOn: bool,
    isFullScreen: bool,
    vaultPasscode: Option<string>,
    vaultTimeout: nat,
    isBioAuthEnabled: bool,
    mainInterfaceId: int,
    lastVersion: string)

  /** The backup document: a snapshot of the four tables plus the settings. */
  datatype NotoData = NotoData(
    folders: seq<Folder>,
    notes: seq<Note>,
    labels: seq<Label>,
    noteLabels: seq<NoteLabel>,
    settings: Settings)

  /** The boolean settings that the settings screen toggles. */
  datatype Flag = ShowNotesCount | DoNotDisturb | ScreenOn | FullScreen | BioAuthEnabled

  function FlagValue(s: Settings, flag: Flag): bool {
    match flag
    case ShowNotesCount => s.isShowNotesCount
    case DoNotDisturb => s.isDoNotDisturb
    case ScreenOn => s.isScreenOn
    case FullScreen => s.isFullScreen
    case BioAuthEnabled => s.isBioAuthEnabled
  }

  /** The settings with one flag overwritten: every other flag and field is kept. */
  function SetFlag(s: Settings, flag: Flag, value: bool): (r: Settings)
    ensures FlagValue(r, flag) == value
    ensures forall g :: g != flag ==> FlagValue(r, g) == FlagValue(s, g)
    ensures r.theme == s.theme && r.font == s.font && r.language == s.language
    ensures r.vaultPasscode == s.vaultPasscode && r.vaultTimeout == s.vaultTimeout
    ensures r.mainInterfaceId == s.mainInterfaceId && r.lastVersion == s.lastVersion
  {
    match flag
    case ShowNotesCount => s.(isShowNotesCount := value)
    case DoNotDisturb => s.(isDoNotDisturb := value)
    case ScreenOn => s.(isScreenOn := value)
    case FullScreen => s.(isFullScreen := value)
    case BioAuthEnabled => s.(isBioAuthEnabled := value)
  }

  /** Toggling a flag twice, each time from the value just written, restores the settings. */
  lemma {:induction false} ToggleTwice(s: Settings, flag: Flag)
    ensures var t := SetFlag(s, flag, !FlagValue(s, flag));
            FlagValue(t, flag) != FlagValue(s, flag) &&
            SetFlag(t, flag, !FlagValue(t, flag)) == s
  {
  }

  // Identifier columns of a table or of a document's list, in order.

  function FolderKeys(rows: seq<Folder>): (ks: seq<int>) {
    seq(|rows|, i requires 0 <= i < |rows| => rows[i].id)
  }

  function NoteKeys(rows: seq<Note>): (ks: seq<int>) {
    seq(|rows|, i requires 0 <= i < |rows| => rows[i].id)
  }

  function LabelKeys(rows: seq<Label>): (ks: seq<int>) {
    seq(|rows|, i requires 0 <= i < |rows| => rows[i].id)
  }

  function NoteLabelKeys(rows: seq<NoteLabel>): (ks: seq<int>) {
    seq(|rows|, i requires 0 <= i < |rows| => rows[i].id)
  }

  /** No identifier occurs twice. */
  predicate Distinct(ks: seq<int>) {
    forall i, j :: 0 <= i < j < |ks| ==> ks[i] != ks[j]
  }

  // Dropping the last record keeps a list's identifiers distinct, and the last
  // identifier occurs nowhere before it.

  lemma {:induction false} FolderKeysDropLast(fs: seq<Folder>)
    requires Distinct(FolderKeys(fs)) && fs != []
    ensures Distinct(FolderKeys(fs[..|fs| - 1]))
    ensures forall k :: 0 <= k < |fs| - 1 ==> fs[k].id != fs[|fs| - 1].id
  {
    var n := |fs| - 1;
    forall k | 0 <= k < n ensures fs[k].id != fs[n].id {
      assert FolderKeys(fs)[k] == fs[k].id && FolderKeys(fs)[n] == fs[n].id;
    }
    forall i, j | 0 <= i < j < n ensures FolderKeys(fs[..n])[i] != FolderKeys(fs[..n])[j] {
      assert FolderKeys(fs)[i] == fs[i].id && FolderKeys(fs)[j] == fs[j].id;
    }
  }

  lemma {:induction false} NoteKeysDropLast(ns: seq<Note>)
    requires Distinct(NoteKeys(ns)) && ns != []
    ensures Distinct(NoteKeys(ns[..|ns| - 1]))
    ensures forall k :: 0 <= k < |ns| - 1 ==> ns[k].id != ns[|ns| - 1].id
  {
    var n := |ns| - 1;
    forall k | 0 <= k < n ensures ns[k].id != ns[n].id {
      assert NoteKeys(ns)[k] == ns[k].id && NoteKeys(ns)[n] == ns[n].id;
    }
    forall i, j | 0 <= i < j < n ensures NoteKeys(ns[..n])[i] != NoteKeys(ns[..n])[j] {
      assert NoteKeys(ns)[i] == ns[i].id && NoteKeys(ns)[j] == ns[j].id;
    }
  }

  lemma {:induction false} LabelKeysDropLast(ls: seq<Label>)
    requires Distinct(LabelKeys(ls)) && ls != []
    ensures Distinct(LabelKeys(ls[..|ls| - 1]))
    ensures forall k :: 0 <= k < |ls| - 1 ==> ls[k].id != ls[|ls| - 1].id
  {
    var n := |ls| - 1;
    forall k | 0 <= k < n ensures ls[k].id != ls[n].id {
      assert LabelKeys(ls)[k] == ls[k].id && LabelKeys(ls)[n] == ls[n].id;
    }
    forall i, j | 0 <= i < j < n ensures LabelKeys(ls[..n])[i] != LabelKeys(ls[..n])[j] {
      assert LabelKeys(ls)[i] == ls[i].id && LabelKeys(ls)[j] == ls[j].id;
    }
  }
}

=== FILE: folder_phase.dfy ===
/**
 * Properties of the folder loop of the import.
 */
module FolderPhase {
  import opened Entities
  import opened Store
  import opened Import

  /**
   * The folder loop never stops early and makes one repository call per document
   * folder, after the existing log; every document folder identifier gets an entry
   * in the folder table, and no other identifier does.
   */
  lemma {:induction false} FolderCalls(db: Db, fs: seq<Folder>, isGeneral: Folder -> bool)
    ensures var p := ImportFolders(db, fs, isGeneral);
      && p.error == None
      && db.log <= p.db.log && |p.db.log| == |db.log| + |fs|
      && (forall x :: x in p.ids <==> x in FolderKeys(fs))
  {
    if fs != [] {
      var n := |fs| - 1;
      FolderCalls(db, fs[..n], isGeneral);
      assert FolderKeys(fs) == FolderKeys(fs[..n]) + [fs[n].id];
    }
  }

  /**
   * The calls are in document order: an update for a general folder, whose table
   * entry is GeneralFolderId, or a create of the id-0 copy for any other, whose
   * table entry is the identifier the create returned, above the counter the
   * import started from (document folder identifiers distinct).
   */
  lemma {:induction false} FolderWrites(db: Db, fs: seq<Folder>, isGeneral: Folder -> bool)
    requires Distinct(FolderKeys(fs))
    ensures var p := ImportFolders(db, fs, isGeneral);
      forall k :: 0 <= k < |fs| ==>
        && |db.log| + k < |p.db.log| && fs[k].id in p.ids
        && p.db.log[|db.log| + k] == FolderWrite(fs[k], p.ids[fs[k].id], isGeneral)
        && (isGeneral(fs[k]) ==> p.ids[fs[k].id] == GeneralFolderId)
        && (!isGeneral(fs[k]) ==> db.lastFolderId < p.ids[fs[k].id])
  {
    if fs != [] {
      var n := |fs| - 1;
      var fs' := fs[..n];
      assert FolderKeys(fs) == FolderKeys(fs') + [fs[n].id];
      FolderKeysDropLast(fs);
      FolderWrites(db, fs', isGeneral);
      FolderCalls(db, fs', isGeneral);
      LastFolderIdGrows(db, fs', isGeneral);
      var p' := ImportFolders(db, fs', isGeneral);
      FolderStepFacts(p', fs[n], isGeneral);
      var p := ImportFolders(db, fs, isGeneral);
      assert p == FolderStep(p', fs[n], isGeneral);
      forall k | 0 <= k < n
        ensures fs'[k] == fs[k] && p.ids[fs[k].id] == p'.ids[fs[k].id]
        ensures p.db.log[|db.log| + k] == p'.db.log[|db.log| + k]
      {
        assert FolderKeys(fs)[k] == fs[k].id && FolderKeys(fs)[n] == fs[n].id;
      }
    }
  }

  /**
   * For every document, repeated identifiers included: call k is the update of
   * folder k when it is general, and otherwise a create of its id-0 copy that
   * returns an identifier above the counter the import started from.
   */
  lemma {:induction false} FolderArgs(db: Db, fs: seq<Folder>, isGeneral: Folder -> bool)
    ensures var p := ImportFolders(db, fs, isGeneral);
      forall k :: 0 <= k < |fs| ==>
        && |db.log| + k < |p.db.log|
        && (isGeneral(fs[k]) ==> p.db.log[|db.log| + k] == FolderUpdated(fs[k]))
        && (!isGeneral(fs[k]) ==>
              && p.db.log[|db.log| + k].FolderCreated?
              && p.db.log[|db.log| + k].folder == fs[k].(id := 0)
              && db.lastFolderId < p.db.log[|db.log| + k].newId)
  {
    if fs != [] {
      var n := |fs| - 1;
      var fs' := fs[..n];
      FolderArgs(db, fs', isGeneral);
      FolderCalls(db, fs', isGeneral);
      LastFolderIdGrows(db, fs', isGeneral);
      var p' := ImportFolders(db, fs', isGeneral);
      var p := ImportFolders(db, fs, isGeneral);
      assert p == FolderStep(p', fs[n], isGeneral);
      FolderStepFacts(p', fs[n], isGeneral);
      assert forall k :: 0 <= k < n ==> fs'[k] == fs[k];
      assert forall k :: 0 <= k < |p'.db.log| ==> p.db.log[k] == p'.db.log[k];
    }
  }

  /** One folder step: the call it logs, the table entry it sets, and nothing else in the table. */
  lemma {:induction false} FolderStepFacts(p: Phase, f: Folder, isGeneral: Folder -> bool)
    ensures var q := FolderStep(p, f, isGeneral);
      && f.id in q.ids
      && q.db.log == p.db.log + [FolderWrite(f, q.ids[f.id], isGeneral)]
      && q.ids == p.ids[f.id := q.ids[f.id]]
      && (isGeneral(f) ==> q.ids[f.id] == GeneralFolderId)
      && (!isGeneral(f) ==> q.ids[f.id] == p.db.lastFolderId + 1)
  {
  }

  /** The folder loop touches only the folder table and adds one row per non-general folder. */
  lemma {:induction false} FolderFrame(db: Db, fs: seq<Folder>, isGeneral: Folder -> bool)
    ensures var p := ImportFolders(db, fs, isGeneral);
      && p.db == db.(folders := p.db.folders, lastFolderId := p.db.lastFolderId, log := p.db.log)
      && |p.db.folders| == |db.folders| + |NonGeneral(fs, isGeneral)|
  {
    if fs != [] {
      var n := |fs| - 1;
      FolderFrame(db, fs[..n], isGeneral);
      assert NonGeneral(fs, isGeneral) ==
        NonGeneral(fs[..n], isGeneral) + (if isGeneral(fs[n]) then [] else [fs[n]]);
    }
  }

  /**
   * The folder loop leaves every live folder row in place unless a general document
   * folder carries its identifier: the creates append and the updates only rewrite
   * the row carrying the updated folder's identifier.
   */
  lemma {:induction false} FoldersKept(db: Db, fs: seq<Folder>, isGeneral: Folder -> bool)
    ensures var p := ImportFolders(db, fs, isGeneral);
      && |db.folders| <= |p.db.folders|
      && forall i :: 0 <= i < |db.folders| && (forall k :: 0 <= k < |fs| && isGeneral(fs[k]) ==> fs[k].id != db.folders[i].id) ==>
           p.db.folders[i] == db.folders[i]
  {
    if fs != [] {
      var n := |fs| - 1;
      FoldersKept(db, fs[..n], isGeneral);
      var p' := ImportFolders(db, fs[..n], isGeneral);
      var p := ImportFolders(db, fs, isGeneral);
      forall i | 0 <= i < |db.folders| && (forall k :: 0 <= k < |fs| && isGeneral(fs[k]) ==> fs[k].id != db.folders[i].id)
        ensures p.db.folders[i] == db.folders[i]
      {
        assert forall k :: 0 <= k < n ==> fs[..n][k] == fs[k];
        assert p'.db.folders[i] == db.folders[i];
      }
    }
  }

  /** The folder loop keeps the store well formed and its references intact. */
  lemma {:induction false} FolderRows(db: Db, fs: seq<Folder>, isGeneral: Folder -> bool)
    requires Valid(db)
    ensures var p := ImportFolders(db, fs, isGeneral);
      Valid(p.db) && (Consistent(db) ==> Consistent(p.db))
  {
    if fs != [] {
      var n := |fs| - 1;
      FolderRows(db, fs[..n], isGeneral);
      var p' := ImportFolders(db, fs[..n], isGeneral);
      if isGeneral(fs[n]) {
        UpdateFolderKeeps(p'.db, fs[n]);
      } else {
        CreateFolderKeeps(p'.db, fs[n].(id := 0));
      }
    }
  }

  /**
   * Every entry of the folder table names a folder of the store after the loop, and
   * is either GeneralFolderId or an identifier no folder had before the import.
   */
  lemma {:induction false} FolderTargets(db: Db, fs: seq<Folder>, isGeneral: Folder -> bool)
    requires Valid(db)
    ensures var p := ImportFolders(db, fs, isGeneral);
      && MapsInto(p.ids, FolderKeys(p.db.folders))
      && (forall x :: x in p.ids ==> p.ids[x] == GeneralFolderId || p.ids[x] !in FolderKeys(db.folders))
  {
    if fs != [] {
      var n := |fs| - 1;
      var fs' := fs[..n];
      FolderTargets(db, fs', isGeneral);
      FolderKeysKept(db, fs', isGeneral);
      var p' := ImportFolders(db, fs', isGeneral);
      var p := ImportFolders(db, fs, isGeneral);
      assert p == FolderStep(p', fs[n], isGeneral);
      if isGeneral(fs[n]) {
        UpdateFolderKeeps(p'.db, fs[n]);
      } else {
        CreateFolderKeeps(p'.db, fs[n].(id := 0));
        var c := CreateFolder(p'.db, fs[n].(id := 0));
        assert c.1 !in FolderKeys(db.folders) by {
          assert forall x :: x in FolderKeys(db.folders) ==> x <= db.lastFolderId;
          LastFolderIdGrows(db, fs', isGeneral);
        }
      }
    }
  }

  /** The folder counter never goes down. */
  lemma {:induction false} LastFolderIdGrows(db: Db, fs: seq<Folder>, isGeneral: Folder -> bool)
    ensures db.lastFolderId <= ImportFolders(db, fs, isGeneral).db.lastFolderId
  {
    if fs != [] {
      LastFolderIdGrows(db, fs[..|fs| - 1], isGeneral);
    }
  }

  /**
   * When the general folder is recognised by its reserved identifier, the folder
   * loop leaves every document folder in the store under its mapped identifier,
   * with all its other fields as in the document: the general folder is merged
   * into the live one (same identifier), every other one is a new row.
   */
  lemma {:induction false} FoldersLanded(db: Db, fs: seq<Folder>, isGeneral: Folder -> bool)
    requires Valid(db)
    requires Distinct(FolderKeys(fs))
    requires forall k :: 0 <= k < |fs| && isGeneral(fs[k]) ==> fs[k].id == GeneralFolderId
    ensures var p := ImportFolders(db, fs, isGeneral);
      forall k :: 0 <= k < |fs| ==> fs[k].id in p.ids && fs[k].(id := p.ids[fs[k].id]) in p.db.folders
  {
    if fs != [] {
      var n := |fs| - 1;
      var fs' := fs[..n];
      FolderKeysDropLast(fs);
      FoldersLanded(db, fs', isGeneral);
      var p' := ImportFolders(db, fs', isGeneral);
      forall k | 0 <= k < |fs|
        ensures var p := ImportFolders(db, fs, isGeneral);
          fs[k].id in p.ids && fs[k].(id := p.ids[fs[k].id]) in p.db.folders
      {
        if k < n {
          assert fs[k] == fs'[k];
          EarlierFolderStays(db, fs, isGeneral, k);
        } else {
          FolderKeysKept(db, fs', isGeneral);
          StepLands(p', fs[n], isGeneral);
        }
      }
    }
  }

  /** A folder that has landed stays in place when the next document folder is processed. */
  lemma {:induction false} EarlierFolderStays(db: Db, fs: seq<Folder>, isGeneral: Folder -> bool, k: nat)
    requires Valid(db) && Distinct(FolderKeys(fs)) && k < |fs| - 1
    requires isGeneral(fs[k]) ==> fs[k].id == GeneralFolderId
    requires isGeneral(fs[|fs| - 1]) ==> fs[|fs| - 1].id == GeneralFolderId
    requires var p' := ImportFolders(db, fs[..|fs| - 1], isGeneral);
      fs[k].id in p'.ids && fs[k].(id := p'.ids[fs[k].id]) in p'.db.folders
    ensures var p := ImportFolders(db, fs, isGeneral);
      fs[k].id in p.ids && fs[k].(id := p.ids[fs[k].id]) in p.db.folders
  {
    var n := |fs| - 1;
    var fs' := fs[..n];
    FolderKeysDropLast(fs);
    var p' := ImportFolders(db, fs', isGeneral);
    var p := ImportFolders(db, fs, isGeneral);
    assert p == FolderStep(p', fs[n], isGeneral);
    assert fs[k] == fs'[k];
    var row := fs[k].(id := p'.ids[fs[k].id]);
    if isGeneral(fs[n]) {
      OnlyGeneralMapsToGeneral(db, fs', isGeneral, k);
    }
    RowSurvives(p', fs[n], isGeneral, row);
  }

  /** Only a general document folder is mapped to GeneralFolderId. */
  lemma {:induction false} OnlyGeneralMapsToGeneral(db: Db, fs: seq<Folder>, isGeneral: Folder -> bool, k: nat)
    requires Valid(db) && Distinct(FolderKeys(fs)) && k < |fs|
    ensures var p := ImportFolders(db, fs, isGeneral);
      fs[k].id in p.ids && (p.ids[fs[k].id] == GeneralFolderId ==> isGeneral(fs[k]))
  {
    FolderWrites(db, fs, isGeneral);
    assert GeneralFolderId in FolderKeys(db.folders);
  }

  /** The folder loop removes no folder identifier. */
  lemma {:induction false} FolderKeysKept(db: Db, fs: seq<Folder>, isGeneral: Folder -> bool)
    ensures forall x :: x in FolderKeys(db.folders) ==> x in FolderKeys(ImportFolders(db, fs, isGeneral).db.folders)
  {
    if fs != [] {
      var p' := ImportFolders(db, fs[..|fs| - 1], isGeneral);
      FolderKeysKept(db, fs[..|fs| - 1], isGeneral);
      if isGeneral(fs[|fs| - 1]) {
        UpdateFolderKeeps(p'.db, fs[|fs| - 1]);
      } else {
        CreateFolderKeeps(p'.db, fs[|fs| - 1].(id := 0));
      }
    }
  }

  /** One folder step keeps a row, unless the step is an update of that row's identifier. */
  lemma {:induction false} RowSurvives(p: Phase, f: Folder, isGeneral: Folder -> bool, row: Folder)
    requires row in p.db.folders
    requires isGeneral(f) ==> row.id != f.id
    ensures row in FolderStep(p, f, isGeneral).db.folders
  {
    if isGeneral(f) {
      UpdateFolderKeeps(p.db, f);
    }
  }

  /** One folder step leaves its folder in the store under the identifier it was mapped to. */
  lemma {:induction false} StepLands(p: Phase, f: Folder, isGeneral: Folder -> bool)
    requires isGeneral(f) ==> f.id == GeneralFolderId && GeneralFolderId in FolderKeys(p.db.folders)
    ensures var q := FolderStep(p, f, isGeneral);
      f.id in q.ids && f.(id := q.ids[f.id]) in q.db.folders
  {
    if isGeneral(f) {
      UpdateFolderKeeps(p.db, f);
    }
  }
}

=== FILE: import.dfy ===
/**
 * What importing a decoded backup document does to the store, as functions on
 * Store.Db, and the properties of that procedure.
 *
 * The document is processed in a fixed order: folders, notes, labels,
 * note-label links, then the settings. Three tables map an identifier of the
 * document to the identifier the store assigned: one for folders, one for
 * notes, one for labels. A reference that is not in its table stops the
 * import at that record; nothing written before it is undone.
 */
module Import {
  import opened Entities
  import opened Store

  /** The record whose reference could not be resolved: its position in its list and the missing key. */
  datatype Dangling =
    | NoteFolder(index: nat, folderId: int)
    | LabelFolder(index: nat, folderId: int)
    | LinkNote(index: nat, noteId: int)
    | LinkLabel(index: nat, labelId: int)

  /** The store and the identifier table after (part of) one phase; error is set when the phase stopped. */
  datatype Phase = Phase(db: Db, ids: map<int, int>, error: Option<Dangling>)

  /** The result of a whole import: the store, the three tables, and the reason it stopped, if it did. */
  datatype Outcome = Outcome(
    db: Db,
    folderIds: map<int, int>,
    noteIds: map<int, int>,
    labelIds: map<int, int>,
    error: Option<Dangling>)

  // ---- the four phases, each defined on a prefix of its list ----

  function FolderStep(p: Phase, f: Folder, isGeneral: Folder -> bool): Phase {
    if isGeneral(f) then
      p.(db := UpdateFolder(p.db, f), ids := p.ids[f.id := GeneralFolderId])
    else
      var (db, newId) := CreateFolder(p.db, f.(id := 0));
      p.(db := db, ids := p.ids[f.id := newId])
  }

  /** The folder loop: merge each general folder into the live one, re-create every other. */
  function ImportFolders(db: Db, fs: seq<Folder>, isGeneral: Folder -> bool): Phase {
    if fs == [] then Phase(db, map[], None)
    else FolderStep(ImportFolders(db, fs[..|fs| - 1], isGeneral), fs[|fs| - 1], isGeneral)
  }

  function NoteStep(p: Phase, folderIds: map<int, int>, n: Note, index: nat): Phase {
    if p.error.Some? then p
    else if n.folderId !in folderIds then p.(error := Some(NoteFolder(index, n.folderId)))
    else
      var (db, newId) := CreateNote(p.db, n.(id := 0, folderId := folderIds[n.folderId]));
      p.(db := db, ids := p.ids[n.id := newId])
  }

  /** The note loop: re-create each note in its re-keyed folder. */
  function ImportNotes(db: Db, folderIds: map<int, int>, ns: seq<Note>): Phase {
    if ns == [] then Phase(db, map[], None)
    else NoteStep(ImportNotes(db, folderIds, ns[..|ns| - 1]), folderIds, ns[|ns| - 1], |ns| - 1)
  }

  function LabelStep(p: Phase, folderIds: map<int, int>, l: Label, index: nat): Phase {
    if p.error.Some? then p
    else if l.folderId !in folderIds then p.(error := Some(LabelFolder(index, l.folderId)))
    else
      var (db, newId) := CreateLabel(p.db, l.(id := 0, folderId := folderIds[l.folderId]));
      p.(db := db, ids := p.ids[l.id := newId])
  }

  /** The label loop: re-create each label in its re-keyed folder. */
  function ImportLabels(db: Db, folderIds: map<int, int>, ls: seq<Label>): Phase {
    if ls == [] then Phase(db, map[], None)
    else LabelStep(ImportLabels(db, folderIds, ls[..|ls| - 1]), folderIds, ls[|ls| - 1], |ls| - 1)
  }

  function LinkStep(p: Phase, noteIds: map<int, int>, labelIds: map<int, int>, nl: NoteLabel, index: nat): Phase {
    if p.error.Some? then p
    else if nl.noteId !in noteIds then p.(error := Some(LinkNote(index, nl.noteId)))
    else if nl.labelId !in labelIds then p.(error := Some(LinkLabel(index, nl.labelId)))
    else
      var (db, _) := CreateNoteLabel(p.db, nl.(id := 0, noteId := noteIds[nl.noteId], labelId := labelIds[nl.labelId]));
      p.(db := db)
  }

  /** The link loop: re-create each note-label link between the re-keyed note and label. */
  function ImportLinks(db: Db, noteIds: map<int, int>, labelIds: map<int, int>, ks: seq<NoteLabel>): Phase {
    if ks == [] then Phase(db, map[], None)
    else LinkStep(ImportLinks(db, noteIds, labelIds, ks[..|ks| - 1]), noteIds, labelIds, ks[|ks| - 1], |ks| - 1)
  }

  /** importJson after decoding: the four phases in dependency order, then the settings overwrite. */
  function ImportData(db: Db, data: NotoData, isGeneral: Folder -> bool): Outcome {
    var fp := ImportFolders(db, data.folders, isGeneral);
    var np := ImportNotes(fp.db, fp.ids, data.notes);
    if np.error.Some? then Outcome(np.db, fp.ids, np.ids, map[], np.error)
    else
      var lp := ImportLabels(np.db, fp.ids, data.labels);
      if lp.error.Some? then Outcome(lp.db, fp.ids, np.ids, lp.ids, lp.error)
      else
        var kp := ImportLinks(lp.db, np.ids, lp.ids, data.noteLabels);
        if kp.error.Some? then Outcome(kp.db, fp.ids, np.ids, lp.ids, kp.error)
        else Outcome(UpdateConfig(kp.db, data.settings), fp.ids, np.ids, lp.ids, None)
  }

  /** exportJson before encoding: the current contents of every table and the settings. */
  function Export(db: Db): (data: NotoData)
    ensures data.folders == db.folders && data.notes == db.notes && data.labels == db.labels
    ensures data.noteLabels == db.noteLabels && data.settings == db.settings
  {
    NotoData(db.folders, db.notes, db.labels, db.noteLabels, db.settings)
  }

  // ---- vocabulary for the properties ----

  /** The repository call the folder loop makes for f, given the identifier f was mapped to. */
  function FolderWrite(f: Folder, newId: int, isGeneral: Folder -> bool): Write {
    if isGeneral(f) then FolderUpdated(f) else FolderCreated(f.(id := 0), newId)
  }

  /** The document folders the import re-creates, in order. */
  function NonGeneral(fs: seq<Folder>, isGeneral: Folder -> bool): seq<Folder> {
    if fs == [] then []
    else NonGeneral(fs[..|fs| - 1], isGeneral) + (if isGeneral(fs[|fs| - 1]) then [] else [fs[|fs| - 1]])
  }

  /** Every reference in the document names a record of the same document. */
  predicate Closed(data: NotoData) {
    && (forall n :: n in data.notes ==> n.folderId in FolderKeys(data.folders))
    && (forall l :: l in data.labels ==> l.folderId in FolderKeys(data.folders))
    && (forall nl :: nl in data.noteLabels ==>
          nl.noteId in NoteKeys(data.notes) && nl.labelId in LabelKeys(data.labels))
  }

  /** Every value of an identifier table is an identifier of the given column. */
  predicate MapsInto(m: map<int, int>, ks: seq<int>) {
    forall x :: x in m ==> m[x] in ks
  }
}

=== FILE: import_properties.dfy ===
/**
 * Properties of the whole import: when it succeeds, where it stops when it
 * does not, what it leaves in the store, and how it composes with export.
 */
module ImportProperties {
  import opened Entities
  import opened Store
  import opened Import
  import opened FolderPhase
  import opened NoteLabelPhases
  import opened LinkPhase

  /**
   * The import runs to the end exactly when every reference in the document
   * names a record of the same document.
   */
  lemma {:induction false} ImportSucceedsIff(db: Db, data: NotoData, isGeneral: Folder -> bool)
    ensures ImportData(db, data, isGeneral).error == None <==> Closed(data)
  {
    var r := ImportData(db, data, isGeneral);
    var fp := ImportFolders(db, data.folders, isGeneral);
    var np := ImportNotes(fp.db, fp.ids, data.notes);
    NotesResolveIff(fp.db, fp.ids, data.notes, db, data.folders, isGeneral);
    if np.error.Some? {
      assert r.error == np.error;
    } else {
      var lp := ImportLabels(np.db, fp.ids, data.labels);
      LabelsResolveIff(np.db, fp.ids, data.labels, db, data.folders, isGeneral);
      if lp.error.Some? {
        assert r.error == lp.error;
      } else {
        var kp := ImportLinks(lp.db, np.ids, lp.ids, data.noteLabels);
        LinksResolveIff(lp.db, fp.db, np.db, fp.ids, data);
        assert r.error == kp.error;
      }
    }
  }

  /** The note loop runs to the end exactly when every note's folder is a document folder. */
  lemma {:induction false} NotesResolveIff(
    db': Db, folderIds: map<int, int>, ns: seq<Note>, db: Db, fs: seq<Folder>, isGeneral: Folder -> bool)
    requires folderIds == ImportFolders(db, fs, isGeneral).ids
    ensures ImportNotes(db', folderIds, ns).error == None <==>
      forall n :: n in ns ==> n.folderId in FolderKeys(fs)
  {
    FolderCalls(db, fs, isGeneral);
    NoteCalls(db', folderIds, ns);
  }

  /** The label loop runs to the end exactly when every label's folder is a document folder. */
  lemma {:induction false} LabelsResolveIff(
    db': Db, folderIds: map<int, int>, ls: seq<Label>, db: Db, fs: seq<Folder>, isGeneral: Folder -> bool)
    requires folderIds == ImportFolders(db, fs, isGeneral).ids
    ensures ImportLabels(db', folderIds, ls).error == None <==>
      forall l :: l in ls ==> l.folderId in FolderKeys(fs)
  {
    FolderCalls(db, fs, isGeneral);
    LabelCalls(db', folderIds, ls);
  }

  /**
   * After complete note and label loops, the link loop runs to the end exactly
   * when both ends of every link are document records.
   */
  lemma {:induction false} LinksResolveIff(
    db': Db, notesFrom: Db, labelsFrom: Db, folderIds: map<int, int>, data: NotoData)
    requires ImportNotes(notesFrom, folderIds, data.notes).error == None
    requires ImportLabels(labelsFrom, folderIds, data.labels).error == None
    ensures var np := ImportNotes(notesFrom, folderIds, data.notes);
      var lp := ImportLabels(labelsFrom, folderIds, data.labels);
      ImportLinks(db', np.ids, lp.ids, data.noteLabels).error == None <==>
        forall nl :: nl in data.noteLabels ==>
          nl.noteId in NoteKeys(data.notes) && nl.labelId in LabelKeys(data.labels)
  {
    var np := ImportNotes(notesFrom, folderIds, data.notes);
    var lp := ImportLabels(labelsFrom, folderIds, data.labels);
    NoteIdsCover(notesFrom, folderIds, data.notes);
    LabelIdsCover(labelsFrom, folderIds, data.labels);
    LinkCalls(db', np.ids, lp.ids, data.noteLabels);
  }

  /**
   * A failed import stops at the first dangling reference in dependency order.
   * Every repository call made before that record stays in effect (no transaction
   * is opened), nothing after it is attempted, and the settings are not written.
   */
  lemma {:induction false} ImportStops(db: Db, data: NotoData, isGeneral: Folder -> bool)
    requires ImportData(db, data, isGeneral).error.Some?
    ensures var r := ImportData(db, data, isGeneral);
      && r.db.settings == db.settings
      && db.log <= r.db.log
      && match r.error.value
         case NoteFolder(k, x) =>
           && k < |data.notes| && x == data.notes[k].folderId && x !in FolderKeys(data.folders)
           && (forall j :: 0 <= j < k ==> data.notes[j].folderId in FolderKeys(data.folders))
           && |r.db.log| == |db.log| + |data.folders| + k
           && r.db.labels == db.labels && r.db.noteLabels == db.noteLabels
         case LabelFolder(k, x) =>
           && k < |data.labels| && x == data.labels[k].folderId && x !in FolderKeys(data.folders)
           && (forall n :: n in data.notes ==> n.folderId in FolderKeys(data.folders))
           && (forall j :: 0 <= j < k ==> data.labels[j].folderId in FolderKeys(data.folders))
           && |r.db.log| == |db.log| + |data.folders| + |data.notes| + k
           && r.db.noteLabels == db.noteLabels
         case LinkNote(k, x) =>
           && k < |data.noteLabels| && x == data.noteLabels[k].noteId && x !in NoteKeys(data.notes)
           && (forall n :: n in data.notes ==> n.folderId in FolderKeys(data.folders))
           && (forall l :: l in data.labels ==> l.folderId in FolderKeys(data.folders))
           && (forall j :: 0 <= j < k ==>
                 data.noteLabels[j].noteId in NoteKeys(data.notes) && data.noteLabels[j].labelId in LabelKeys(data.labels))
           && |r.db.log| == |db.log| + |data.folders| + |data.notes| + |data.labels| + k
         case LinkLabel(k, x) =>
           && k < |data.noteLabels| && data.noteLabels[k].noteId in NoteKeys(data.notes)
           && x == data.noteLabels[k].labelId && x !in LabelKeys(data.labels)
           && (forall n :: n in data.notes ==> n.folderId in FolderKeys(data.folders))
           && (forall l :: l in data.labels ==> l.folderId in FolderKeys(data.folders))
           && (forall j :: 0 <= j < k ==>
                 data.noteLabels[j].noteId in NoteKeys(data.notes) && data.noteLabels[j].labelId in LabelKeys(data.labels))
           && |r.db.log| == |db.log| + |data.folders| + |data.notes| + |data.labels| + k
  {
    var r := ImportData(db, data, isGeneral);
    var fp := ImportFolders(db, data.folders, isGeneral);
    FolderCalls(db, data.folders, isGeneral);
    FolderFrame(db, data.folders, isGeneral);
    var np := ImportNotes(fp.db, fp.ids, data.notes);
    NoteCalls(fp.db, fp.ids, data.notes);
    NoteFrame(fp.db, fp.ids, data.notes);
    if np.error.Some? {
      assert r.db == np.db && r.error == np.error;
    } else {
      var lp := ImportLabels(np.db, fp.ids, data.labels);
      NotesResolveIff(fp.db, fp.ids, data.notes, db, data.folders, isGeneral);
      LabelCalls(np.db, fp.ids, data.labels);
      LabelFrame(np.db, fp.ids, data.labels);
      if lp.error.Some? {
        assert r.db == lp.db && r.error == lp.error;
      } else {
        var kp := ImportLinks(lp.db, np.ids, lp.ids, data.noteLabels);
        NoteIdsCover(fp.db, fp.ids, data.notes);
        LabelIdsCover(np.db, fp.ids, data.labels);
        LabelsResolveIff(np.db, fp.ids, data.labels, db, data.folders, isGeneral);
        LinkCalls(lp.db, np.ids, lp.ids, data.noteLabels);
        LinkFrame(lp.db, np.ids, lp.ids, data.noteLabels);
        assert r.db == kp.db && r.error == kp.error;
      }
    }
  }

  /**
   * A successful import makes one repository call per document record, in
   * dependency order, and ends with the settings overwrite: the store's settings
   * are the document's. It adds one folder per non-general document folder and
   * one row per note, label and link.
   */
  lemma {:induction false} ImportSucceeds(db: Db, data: NotoData, isGeneral: Folder -> bool)
    requires ImportData(db, data, isGeneral).error == None
    ensures var r := ImportData(db, data, isGeneral);
      && r.db.settings == data.settings
      && db.log <= r.db.log
      && |r.db.log| == |db.log| + |data.folders| + |data.notes| + |data.labels| + |data.noteLabels| + 1
      && r.db.log[|r.db.log| - 1] == ConfigUpdated(data.settings)
    ensures var r := ImportData(db, data, isGeneral);
      && |r.db.folders| == |db.folders| + |NonGeneral(data.folders, isGeneral)|
      && |r.db.notes| == |db.notes| + |data.notes|
      && |r.db.labels| == |db.labels| + |data.labels|
      && |r.db.noteLabels| == |db.noteLabels| + |data.noteLabels|
  {
    var fp := ImportFolders(db, data.folders, isGeneral);
    FolderCalls(db, data.folders, isGeneral);
    FolderFrame(db, data.folders, isGeneral);
    var np := ImportNotes(fp.db, fp.ids, data.notes);
    NoteCalls(fp.db, fp.ids, data.notes);
    NoteFrame(fp.db, fp.ids, data.notes);
    var lp := ImportLabels(np.db, fp.ids, data.labels);
    LabelCalls(np.db, fp.ids, data.labels);
    LabelFrame(np.db, fp.ids, data.labels);
    LinkCalls(lp.db, np.ids, lp.ids, data.noteLabels);
    LinkFrame(lp.db, np.ids, lp.ids, data.noteLabels);
  }

  /**
   * Whether it succeeds or stops early, the import keeps the store well formed
   * (the general folder included) and keeps every reference in it intact.
   */
  lemma {:induction false} ImportKeepsStore(db: Db, data: NotoData, isGeneral: Folder -> bool)
    requires Valid(db)
    ensures var r := ImportData(db, data, isGeneral);
      Valid(r.db) && (Consistent(db) ==> Consistent(r.db))
  {
    var fp := ImportFolders(db, data.folders, isGeneral);
    FolderRows(db, data.folders, isGeneral);
    FolderTargets(db, data.folders, isGeneral);
    var r := ImportData(db, data, isGeneral);
    var np := ImportNotes(fp.db, fp.ids, data.notes);
    NoteRows(fp.db, fp.ids, data.notes);
    NoteFrame(fp.db, fp.ids, data.notes);
    if np.error.Some? {
      assert r.db == np.db;
    } else {
      var lp := ImportLabels(np.db, fp.ids, data.labels);
      LabelRows(np.db, fp.ids, data.labels);
      LabelFrame(np.db, fp.ids, data.labels);
      if lp.error.Some? {
        assert r.db == lp.db;
      } else {
        var kp := ImportLinks(lp.db, np.ids, lp.ids, data.noteLabels);
        LinkRows(lp.db, np.ids, lp.ids, data.noteLabels);
        if kp.error.Some? {
          assert r.db == kp.db;
        } else {
          assert r.db == UpdateConfig(kp.db, data.settings);
        }
      }
    }
  }

  /**
   * Record by record, a successful import makes its calls right after the
   * existing log, first one per folder: an update for a general folder, whose
   * folder table entry is GeneralFolderId, or a create of the id-0 copy, whose
   * table entry is the returned identifier (document identifiers distinct).
   */
  lemma {:induction false} ImportFolderRecords(db: Db, data: NotoData, isGeneral: Folder -> bool)
    requires ImportData(db, data, isGeneral).error == None
    requires Distinct(FolderKeys(data.folders))
    ensures var r := ImportData(db, data, isGeneral);
      |r.db.log| == |db.log| + |data.folders| + |data.notes| + |data.labels| + |data.noteLabels| + 1
    ensures var r := ImportData(db, data, isGeneral);
      forall k :: 0 <= k < |data.folders| ==>
        var f := data.folders[k];
        && f.id in r.folderIds
        && r.db.log[|db.log| + k] == FolderWrite(f, r.folderIds[f.id], isGeneral)
        && (isGeneral(f) ==> r.folderIds[f.id] == GeneralFolderId)
  {
    LogChain(db, data, isGeneral);
    FolderWrites(db, data.folders, isGeneral);
  }

  /**
   * Then one call per note, in document order: a create of the copy with identifier 0
   * and the folder identifier taken from the folder table; the note table entry is
   * the returned identifier (document note identifiers distinct).
   */
  lemma {:induction false} ImportNoteRecords(db: Db, data: NotoData, isGeneral: Folder -> bool)
    requires ImportData(db, data, isGeneral).error == None
    requires Distinct(NoteKeys(data.notes))
    ensures var r := ImportData(db, data, isGeneral);
      |r.db.log| == |db.log| + |data.folders| + |data.notes| + |data.labels| + |data.noteLabels| + 1
    ensures var r := ImportData(db, data, isGeneral);
      forall k :: 0 <= k < |data.notes| ==>
        var n := data.notes[k];
        && n.folderId in r.folderIds && n.id in r.noteIds
        && r.db.log[|db.log| + |data.folders| + k] ==
             NoteCreated(n.(id := 0, folderId := r.folderIds[n.folderId]), r.noteIds[n.id])
  {
    LogChain(db, data, isGeneral);
    var r := ImportData(db, data, isGeneral);
    var fp := ImportFolders(db, data.folders, isGeneral);
    var np := ImportNotes(fp.db, fp.ids, data.notes);
    assert r.folderIds == fp.ids && r.noteIds == np.ids;
    forall k | 0 <= k < |data.notes|
      ensures var n := data.notes[k];
        && n.folderId in r.folderIds && n.id in r.noteIds
        && r.db.log[|db.log| + |data.folders| + k] ==
             NoteCreated(n.(id := 0, folderId := r.folderIds[n.folderId]), r.noteIds[n.id])
    {
      NoteRecord(fp.db, fp.ids, data.notes, k);
      assert r.db.log[|db.log| + |data.folders| + k] == np.db.log[|fp.db.log| + k];
    }
  }

  /** Then one call per label, as for notes, with the label table. */
  lemma {:induction false} ImportLabelRecords(db: Db, data: NotoData, isGeneral: Folder -> bool)
    requires ImportData(db, data, isGeneral).error == None
    requires Distinct(LabelKeys(data.labels))
    ensures var r := ImportData(db, data, isGeneral);
      |r.db.log| == |db.log| + |data.folders| + |data.notes| + |data.labels| + |data.noteLabels| + 1
    ensures var r := ImportData(db, data, isGeneral);
      forall k :: 0 <= k < |data.labels| ==>
        var l := data.labels[k];
        && l.folderId in r.folderIds && l.id in r.labelIds
        && r.db.log[|db.log| + |data.folders| + |data.notes| + k] ==
             LabelCreated(l.(id := 0, folderId := r.folderIds[l.folderId]), r.labelIds[l.id])
  {
    LogChain(db, data, isGeneral);
    var r := ImportData(db, data, isGeneral);
    var fp := ImportFolders(db, data.folders, isGeneral);
    var np := ImportNotes(fp.db, fp.ids, data.notes);
    var lp := ImportLabels(np.db, fp.ids, data.labels);
    assert r.folderIds == fp.ids && r.labelIds == lp.ids;
    forall k | 0 <= k < |data.labels|
      ensures var l := data.labels[k];
        && l.folderId in r.folderIds && l.id in r.labelIds
        && r.db.log[|db.log| + |data.folders| + |data.notes| + k] ==
             LabelCreated(l.(id := 0, folderId := r.folderIds[l.folderId]), r.labelIds[l.id])
    {
      LabelRecord(np.db, fp.ids, data.labels, k);
      assert r.db.log[|db.log| + |data.folders| + |data.notes| + k] == lp.db.log[|np.db.log| + k];
    }
  }

  /**
   * Then one call per link: a create of the copy with identifier 0 whose note and
   * label identifiers are taken from the note and label tables.
   */
  lemma {:induction false} ImportLinkRecords(db: Db, data: NotoData, isGeneral: Folder -> bool)
    requires ImportData(db, data, isGeneral).error == None
    ensures var r := ImportData(db, data, isGeneral);
      |r.db.log| == |db.log| + |data.folders| + |data.notes| + |data.labels| + |data.noteLabels| + 1
    ensures var r := ImportData(db, data, isGeneral);
      forall k :: 0 <= k < |data.noteLabels| ==>
        var nl := data.noteLabels[k];
        var w := r.db.log[|db.log| + |data.folders| + |data.notes| + |data.labels| + k];
        && nl.noteId in r.noteIds && nl.labelId in r.labelIds
        && w.NoteLabelCreated?
        && w.noteLabel == nl.(id := 0, noteId := r.noteIds[nl.noteId], labelId := r.labelIds[nl.labelId])
  {
    LogChain(db, data, isGeneral);
    var r := ImportData(db, data, isGeneral);
    var fp := ImportFolders(db, data.folders, isGeneral);
    var np := ImportNotes(fp.db, fp.ids, data.notes);
    var lp := ImportLabels(np.db, fp.ids, data.labels);
    var kp := ImportLinks(lp.db, np.ids, lp.ids, data.noteLabels);
    assert r.noteIds == np.ids && r.labelIds == lp.ids;
    forall k | 0 <= k < |data.noteLabels|
      ensures var nl := data.noteLabels[k];
        var w := r.db.log[|db.log| + |data.folders| + |data.notes| + |data.labels| + k];
        && nl.noteId in r.noteIds && nl.labelId in r.labelIds
        && w.NoteLabelCreated?
        && w.noteLabel == nl.(id := 0, noteId := r.noteIds[nl.noteId], labelId := r.labelIds[nl.labelId])
    {
      LinkRecord(lp.db, np.ids, lp.ids, data.noteLabels, k);
      assert r.db.log[|db.log| + |data.folders| + |data.notes| + |data.labels| + k] == kp.db.log[|lp.db.log| + k];
    }
  }

  /**
   * A successful import appends every document note to the note table, in document
   * order and after the rows already there: the next note identifier and the folder
   * identifier re-keyed through the folder table, every other field as in the
   * document. With distinct document note identifiers, the note table maps each to
   * its new row's identifier.
   */
  lemma {:induction false} ImportStoresNotes(db: Db, data: NotoData, isGeneral: Folder -> bool)
    requires ImportData(db, data, isGeneral).error == None
    ensures var r := ImportData(db, data, isGeneral);
      && |r.db.notes| == |db.notes| + |data.notes|
      && r.db.notes[..|db.notes|] == db.notes
      && (forall k :: 0 <= k < |data.notes| ==>
            && data.notes[k].folderId in r.folderIds
            && r.db.notes[|db.notes| + k] ==
                 data.notes[k].(id := db.lastNoteId + k + 1, folderId := r.folderIds[data.notes[k].folderId]))
      && (Distinct(NoteKeys(data.notes)) ==>
            forall k :: 0 <= k < |data.notes| ==>
              data.notes[k].id in r.noteIds && r.noteIds[data.notes[k].id] == db.lastNoteId + k + 1)
  {
    var r := ImportData(db, data, isGeneral);
    var fp := ImportFolders(db, data.folders, isGeneral);
    FolderFrame(db, data.folders, isGeneral);
    var np := ImportNotes(fp.db, fp.ids, data.notes);
    NotesStored(fp.db, fp.ids, data.notes);
    if Distinct(NoteKeys(data.notes)) {
      NoteCalls(fp.db, fp.ids, data.notes);
      NoteIdsNumbered(fp.db, fp.ids, data.notes);
    }
    assert fp.db.notes == db.notes && fp.db.lastNoteId == db.lastNoteId;
    var lp := ImportLabels(np.db, fp.ids, data.labels);
    LabelFrame(np.db, fp.ids, data.labels);
    var kp := ImportLinks(lp.db, np.ids, lp.ids, data.noteLabels);
    LinkFrame(lp.db, np.ids, lp.ids, data.noteLabels);
    assert r == Outcome(UpdateConfig(kp.db, data.settings), fp.ids, np.ids, lp.ids, None);
    assert r.db.notes == np.db.notes;
    forall k | 0 <= k < |data.notes|
      ensures data.notes[k].folderId in r.folderIds
      ensures r.db.notes[|db.notes| + k] ==
        data.notes[k].(id := db.lastNoteId + k + 1, folderId := r.folderIds[data.notes[k].folderId])
    {
      assert r.db.notes[|db.notes| + k] == np.db.notes[|fp.db.notes| + k];
    }
  }

  /** The same for labels: appended in document order, re-keyed through the folder table. */
  lemma {:induction false} ImportStoresLabels(db: Db, data: NotoData, isGeneral: Folder -> bool)
    requires ImportData(db, data, isGeneral).error == None
    ensures var r := ImportData(db, data, isGeneral);
      && |r.db.labels| == |db.labels| + |data.labels|
      && r.db.labels[..|db.labels|] == db.labels
      && (forall k :: 0 <= k < |data.labels| ==>
            && data.labels[k].folderId in r.folderIds
            && r.db.labels[|db.labels| + k] ==
                 data.labels[k].(id := db.lastLabelId + k + 1, folderId := r.folderIds[data.labels[k].folderId]))
      && (Distinct(LabelKeys(data.labels)) ==>
            forall k :: 0 <= k < |data.labels| ==>
              data.labels[k].id in r.labelIds && r.labelIds[data.labels[k].id] == db.lastLabelId + k + 1)
  {
    var r := ImportData(db, data, isGeneral);
    var fp := ImportFolders(db, data.folders, isGeneral);
    FolderFrame(db, data.folders, isGeneral);
    var np := ImportNotes(fp.db, fp.ids, data.notes);
    NoteFrame(fp.db, fp.ids, data.notes);
    var lp := ImportLabels(np.db, fp.ids, data.labels);
    LabelsStored(np.db, fp.ids, data.labels);
    if Distinct(LabelKeys(data.labels)) {
      LabelCalls(np.db, fp.ids, data.labels);
      LabelIdsNumbered(np.db, fp.ids, data.labels);
    }
    assert np.db.labels == db.labels && np.db.lastLabelId == db.lastLabelId;
    var kp := ImportLinks(lp.db, np.ids, lp.ids, data.noteLabels);
    LinkFrame(lp.db, np.ids, lp.ids, data.noteLabels);
    assert r == Outcome(UpdateConfig(kp.db, data.settings), fp.ids, np.ids, lp.ids, None);
    assert r.db.labels == lp.db.labels;
    forall k | 0 <= k < |data.labels|
      ensures data.labels[k].folderId in r.folderIds
      ensures r.db.labels[|db.labels| + k] ==
        data.labels[k].(id := db.lastLabelId + k + 1, folderId := r.folderIds[data.labels[k].folderId])
    {
      assert r.db.labels[|db.labels| + k] == lp.db.labels[|np.db.labels| + k];
    }
  }

  /**
   * The same for links: appended in document order with the next link identifier,
   * both ends re-keyed through the note and label tables.
   */
  lemma {:induction false} ImportStoresLinks(db: Db, data: NotoData, isGeneral: Folder -> bool)
    requires ImportData(db, data, isGeneral).error == None
    ensures var r := ImportData(db, data, isGeneral);
      && |r.db.noteLabels| == |db.noteLabels| + |data.noteLabels|
      && r.db.noteLabels[..|db.noteLabels|] == db.noteLabels
      && (forall k :: 0 <= k < |data.noteLabels| ==>
            var nl := data.noteLabels[k];
            && nl.noteId in r.noteIds && nl.labelId in r.labelIds
            && r.db.noteLabels[|db.noteLabels| + k] ==
                 nl.(id := db.lastNoteLabelId + k + 1, noteId := r.noteIds[nl.noteId], labelId := r.labelIds[nl.labelId]))
  {
    var r := ImportData(db, data, isGeneral);
    var fp := ImportFolders(db, data.folders, isGeneral);
    FolderFrame(db, data.folders, isGeneral);
    var np := ImportNotes(fp.db, fp.ids, data.notes);
    NoteFrame(fp.db, fp.ids, data.notes);
    var lp := ImportLabels(np.db, fp.ids, data.labels);
    LabelFrame(np.db, fp.ids, data.labels);
    var kp := ImportLinks(lp.db, np.ids, lp.ids, data.noteLabels);
    LinksStored(lp.db, np.ids, lp.ids, data.noteLabels);
    assert lp.db.noteLabels == db.noteLabels && lp.db.lastNoteLabelId == db.lastNoteLabelId;
    assert r == Outcome(UpdateConfig(kp.db, data.settings), fp.ids, np.ids, lp.ids, None);
    assert r.db.noteLabels == kp.db.noteLabels;
    forall k | 0 <= k < |data.noteLabels|
      ensures var nl := data.noteLabels[k];
        && nl.noteId in r.noteIds && nl.labelId in r.labelIds
        && r.db.noteLabels[|db.noteLabels| + k] ==
             nl.(id := db.lastNoteLabelId + k + 1, noteId := r.noteIds[nl.noteId], labelId := r.labelIds[nl.labelId])
    {
      assert r.db.noteLabels[|db.noteLabels| + k] == kp.db.noteLabels[|lp.db.noteLabels| + k];
    }
  }

  /**
   * Whether it succeeds or stops, the import leaves every document folder in the
   * store under its mapped identifier, when the general folder is recognised by its
   * reserved identifier and the document's folder identifiers are distinct.
   */
  lemma {:induction false} ImportStoresFolders(db: Db, data: NotoData, isGeneral: Folder -> bool)
    requires Valid(db) && Distinct(FolderKeys(data.folders))
    requires forall k :: 0 <= k < |data.folders| && isGeneral(data.folders[k]) ==>
      data.folders[k].id == GeneralFolderId
    ensures var r := ImportData(db, data, isGeneral);
      forall k :: 0 <= k < |data.folders| ==>
        var f := data.folders[k];
        f.id in r.folderIds && f.(id := r.folderIds[f.id]) in r.db.folders
  {
    FoldersLanded(db, data.folders, isGeneral);
    FoldersAfterImport(db, data, isGeneral);
  }

  /**
   * Whether it succeeds or stops, the import leaves every live folder row in place
   * unless a general document folder carries its identifier.
   */
  lemma {:induction false} ImportKeepsFolders(db: Db, data: NotoData, isGeneral: Folder -> bool)
    ensures var r := ImportData(db, data, isGeneral);
      && |db.folders| <= |r.db.folders|
      && forall i ::
           (&& 0 <= i < |db.folders|
            && forall k :: 0 <= k < |data.folders| && isGeneral(data.folders[k]) ==> data.folders[k].id != db.folders[i].id) ==>
             r.db.folders[i] == db.folders[i]
  {
    FoldersKept(db, data.folders, isGeneral);
    FoldersAfterImport(db, data, isGeneral);
  }

  /** Only the folder loop writes folders: the later loops leave the folder table as it left it. */
  lemma {:induction false} FoldersAfterImport(db: Db, data: NotoData, isGeneral: Folder -> bool)
    ensures ImportData(db, data, isGeneral).db.folders == ImportFolders(db, data.folders, isGeneral).db.folders
    ensures ImportData(db, data, isGeneral).folderIds == ImportFolders(db, data.folders, isGeneral).ids
  {
    var r := ImportData(db, data, isGeneral);
    var fp := ImportFolders(db, data.folders, isGeneral);
    var np := ImportNotes(fp.db, fp.ids, data.notes);
    NoteFrame(fp.db, fp.ids, data.notes);
    if np.error.Some? {
      assert r.db == np.db && r.folderIds == fp.ids;
    } else {
      var lp := ImportLabels(np.db, fp.ids, data.labels);
      LabelFrame(np.db, fp.ids, data.labels);
      if lp.error.Some? {
        assert r.db == lp.db && r.folderIds == fp.ids;
      } else {
        var kp := ImportLinks(lp.db, np.ids, lp.ids, data.noteLabels);
        LinkFrame(lp.db, np.ids, lp.ids, data.noteLabels);
        assert r.db.folders == kp.db.folders && r.folderIds == fp.ids;
      }
    }
  }

  /** A prefix of a log agrees with the whole log on its positions. */
  lemma {:induction false} PrefixAt(a: seq<Write>, b: seq<Write>)
    requires a <= b
    ensures forall i :: 0 <= i < |a| ==> b[i] == a[i]
  {
    assert a == b[..|a|];
  }

  /**
   * On success, the log after each phase is a prefix of the final log, of the
   * length that phase's record count gives.
   */
  lemma {:induction false} LogChain(db: Db, data: NotoData, isGeneral: Folder -> bool)
    requires ImportData(db, data, isGeneral).error == None
    ensures var r := ImportData(db, data, isGeneral);
      var fp := ImportFolders(db, data.folders, isGeneral);
      var np := ImportNotes(fp.db, fp.ids, data.notes);
      var lp := ImportLabels(np.db, fp.ids, data.labels);
      var kp := ImportLinks(lp.db, np.ids, lp.ids, data.noteLabels);
      && np.error == None && lp.error == None && kp.error == None
      && |fp.db.log| == |db.log| + |data.folders|
      && |np.db.log| == |fp.db.log| + |data.notes|
      && |lp.db.log| == |np.db.log| + |data.labels|
      && |kp.db.log| == |lp.db.log| + |data.noteLabels|
      && (forall i :: 0 <= i < |fp.db.log| ==> r.db.log[i] == fp.db.log[i])
      && (forall i :: 0 <= i < |np.db.log| ==> r.db.log[i] == np.db.log[i])
      && (forall i :: 0 <= i < |lp.db.log| ==> r.db.log[i] == lp.db.log[i])
      && (forall i :: 0 <= i < |kp.db.log| ==> r.db.log[i] == kp.db.log[i])
  {
    var r := ImportData(db, data, isGeneral);
    var fp := ImportFolders(db, data.folders, isGeneral);
    FolderCalls(db, data.folders, isGeneral);
    var np := ImportNotes(fp.db, fp.ids, data.notes);
    NoteCalls(fp.db, fp.ids, data.notes);
    var lp := ImportLabels(np.db, fp.ids, data.labels);
    LabelCalls(np.db, fp.ids, data.labels);
    var kp := ImportLinks(lp.db, np.ids, lp.ids, data.noteLabels);
    LinkCalls(lp.db, np.ids, lp.ids, data.noteLabels);
    assert r.db.log == kp.db.log + [ConfigUpdated(data.settings)];
    PrefixAt(kp.db.log, r.db.log);
    PrefixAt(lp.db.log, kp.db.log);
    PrefixAt(np.db.log, lp.db.log);
    PrefixAt(fp.db.log, np.db.log);
  }

  /**
   * Exporting a well-formed, consistent store gives a document without repeated
   * folder, note or label identifiers and without dangling references. Importing it
   * into any store runs to the end, takes its settings, and appends every exported
   * note, label and link after the target's rows, in order and equal to the exported
   * record up to the renumbering the identifier tables record. Each target folder row
   * stays in place unless an exported general folder carries its identifier. When the target is well formed and
   * the general folder is recognised by its reserved identifier, every exported
   * folder is in the target under its mapped identifier.
   */
  lemma {:induction false} ExportImport(db: Db, target: Db, isGeneral: Folder -> bool)
    requires Valid(db) && Consistent(db)
    ensures var data := Export(db);
      && Closed(data)
      && Distinct(FolderKeys(data.folders)) && Distinct(NoteKeys(data.notes)) && Distinct(LabelKeys(data.labels))
    ensures var r := ImportData(target, Export(db), isGeneral);
      && r.error == None
      && r.db.settings == db.settings
      && |r.db.notes| == |target.notes| + |db.notes|
      && |r.db.labels| == |target.labels| + |db.labels|
      && |r.db.noteLabels| == |target.noteLabels| + |db.noteLabels|
      && r.db.notes[..|target.notes|] == target.notes
      && r.db.labels[..|target.labels|] == target.labels
      && r.db.noteLabels[..|target.noteLabels|] == target.noteLabels
      && |target.folders| <= |r.db.folders|
    ensures var r := ImportData(target, Export(db), isGeneral);
      forall i ::
        (&& 0 <= i < |target.folders|
         && forall k :: 0 <= k < |db.folders| && isGeneral(db.folders[k]) ==> db.folders[k].id != target.folders[i].id) ==>
          r.db.folders[i] == target.folders[i]
    ensures var r := ImportData(target, Export(db), isGeneral);
      forall k :: 0 <= k < |db.notes| ==>
        var n := db.notes[k];
        && n.id in r.noteIds && n.folderId in r.folderIds
        && r.db.notes[|target.notes| + k] == n.(id := r.noteIds[n.id], folderId := r.folderIds[n.folderId])
    ensures var r := ImportData(target, Export(db), isGeneral);
      forall k :: 0 <= k < |db.labels| ==>
        var l := db.labels[k];
        && l.id in r.labelIds && l.folderId in r.folderIds
        && r.db.labels[|target.labels| + k] == l.(id := r.labelIds[l.id], folderId := r.folderIds[l.folderId])
    ensures var r := ImportData(target, Export(db), isGeneral);
      forall k :: 0 <= k < |db.noteLabels| ==>
        var nl := db.noteLabels[k];
        && nl.noteId in r.noteIds && nl.labelId in r.labelIds
        && r.db.noteLabels[|target.noteLabels| + k] ==
             nl.(id := target.lastNoteLabelId + k + 1, noteId := r.noteIds[nl.noteId], labelId := r.labelIds[nl.labelId])
    ensures Valid(target) && (forall k :: 0 <= k < |db.folders| && isGeneral(db.folders[k]) ==> db.folders[k].id == GeneralFolderId) ==>
      var r := ImportData(target, Export(db), isGeneral);
      forall k :: 0 <= k < |db.folders| ==>
        var f := db.folders[k];
        f.id in r.folderIds && f.(id := r.folderIds[f.id]) in r.db.folders
  {
    var data := Export(db);
    ImportSucceedsIff(target, data, isGeneral);
    ImportSucceeds(target, data, isGeneral);
    ImportStoresNotes(target, data, isGeneral);
    ImportStoresLabels(target, data, isGeneral);
    ImportStoresLinks(target, data, isGeneral);
    var r := ImportData(target, data, isGeneral);
    forall i |
      && 0 <= i < |target.folders|
      && forall k :: 0 <= k < |db.folders| && isGeneral(db.folders[k]) ==> db.folders[k].id != target.folders[i].id
      ensures r.db.folders[i] == target.folders[i]
    {
      ImportKeepsFolders(target, data, isGeneral);
    }
    if Valid(target) && (forall k :: 0 <= k < |db.folders| && isGeneral(db.folders[k]) ==> db.folders[k].id == GeneralFolderId) {
      ImportStoresFolders(target, data, isGeneral);
    }
  }
}

=== FILE: link_phase.dfy ===
/**
 * Properties of the note-label link loop of the import.
 */
module LinkPhase {
  import opened Entities
  import opened Store
  import opened Import

  /** Both ends of a link have an entry in their identifier tables. */
  predicate Resolves(nl: NoteLabel, noteIds: map<int, int>, labelIds: map<int, int>) {
    nl.noteId in noteIds && nl.labelId in labelIds
  }

  /**
   * The link loop creates the links in document order, each as the copy with
   * identifier 0 whose note and label identifiers are taken from the note and
   * label tables, and each create returns the next link identifier. It stops at
   * the first link with an end missing from its table, reporting the note end when
   * both are missing; the links before it stay created.
   */
  lemma {:induction false} LinkCalls(db: Db, noteIds: map<int, int>, labelIds: map<int, int>, ks: seq<NoteLabel>)
    ensures var o := ImportLinks(db, noteIds, labelIds, ks);
      && db.log <= o.db.log
      && (o.error == None <==> forall k :: 0 <= k < |ks| ==> Resolves(ks[k], noteIds, labelIds))
      && (o.error == None ==> |o.db.log| == |db.log| + |ks|)
      && (o.error.Some? ==>
            && o.error.value.index < |ks|
            && o.error.value ==
                 (var i := o.error.value.index;
                  if ks[i].noteId !in noteIds then LinkNote(i, ks[i].noteId) else LinkLabel(i, ks[i].labelId))
            && !Resolves(ks[o.error.value.index], noteIds, labelIds)
            && (forall j :: 0 <= j < o.error.value.index ==> Resolves(ks[j], noteIds, labelIds))
            && |o.db.log| == |db.log| + o.error.value.index)
    ensures var o := ImportLinks(db, noteIds, labelIds, ks);
      forall k :: 0 <= k < |ks| && |db.log| + k < |o.db.log| ==>
        && Resolves(ks[k], noteIds, labelIds)
        && o.db.log[|db.log| + k] ==
             NoteLabelCreated(ks[k].(id := 0, noteId := noteIds[ks[k].noteId], labelId := labelIds[ks[k].labelId]),
                              db.lastNoteLabelId + k + 1)
  {
    LinkStatus(db, noteIds, labelIds, ks);
    if ks != [] {
      var n := |ks| - 1;
      var ks' := ks[..n];
      LinkCalls(db, noteIds, labelIds, ks');
      LinkFrame(db, noteIds, labelIds, ks');
      LinksStored(db, noteIds, labelIds, ks');
      var o' := ImportLinks(db, noteIds, labelIds, ks');
      var o := ImportLinks(db, noteIds, labelIds, ks);
      assert o == LinkStep(o', noteIds, labelIds, ks[n], n);
      assert forall k :: 0 <= k < n ==> ks'[k] == ks[k];
      assert forall k :: 0 <= k < |o'.db.log| ==> o.db.log[k] == o'.db.log[k];
    }
  }

  /** The status half of LinkCalls, by induction on the links. */
  lemma {:induction false} LinkStatus(db: Db, noteIds: map<int, int>, labelIds: map<int, int>, ks: seq<NoteLabel>)
    ensures var o := ImportLinks(db, noteIds, labelIds, ks);
      && db.log <= o.db.log
      && (o.error == None <==> forall k :: 0 <= k < |ks| ==> Resolves(ks[k], noteIds, labelIds))
      && (o.error == None ==> |o.db.log| == |db.log| + |ks|)
      && (o.error.Some? ==>
            && o.error.value.index < |ks|
            && o.error.value ==
                 (var i := o.error.value.index;
                  if ks[i].noteId !in noteIds then LinkNote(i, ks[i].noteId) else LinkLabel(i, ks[i].labelId))
            && !Resolves(ks[o.error.value.index], noteIds, labelIds)
            && (forall j :: 0 <= j < o.error.value.index ==> Resolves(ks[j], noteIds, labelIds))
            && |o.db.log| == |db.log| + o.error.value.index)
  {
    if ks != [] {
      var n := |ks| - 1;
      var ks' := ks[..n];
      LinkStatus(db, noteIds, labelIds, ks');
      var o' := ImportLinks(db, noteIds, labelIds, ks');
      var o := ImportLinks(db, noteIds, labelIds, ks);
      assert o == LinkStep(o', noteIds, labelIds, ks[n], n);
      assert forall k :: 0 <= k < n ==> ks'[k] == ks[k];
    }
  }

  /** One link of a completed link loop: its create call. */
  lemma {:induction false} LinkRecord(db: Db, noteIds: map<int, int>, labelIds: map<int, int>, ks: seq<NoteLabel>, k: nat)
    requires k < |ks| && ImportLinks(db, noteIds, labelIds, ks).error == None
    ensures var o := ImportLinks(db, noteIds, labelIds, ks);
      && Resolves(ks[k], noteIds, labelIds)
      && |db.log| + k < |o.db.log|
      && o.db.log[|db.log| + k].NoteLabelCreated?
      && o.db.log[|db.log| + k].noteLabel ==
           ks[k].(id := 0, noteId := noteIds[ks[k].noteId], labelId := labelIds[ks[k].labelId])
  {
    LinkCalls(db, noteIds, labelIds, ks);
  }

  /**
   * The link loop appends one row per link it reached, in document order: the
   * document link with the next link identifier and both ends taken from the note
   * and label tables; the rows already there stay.
   */
  lemma {:induction false} LinksStored(db: Db, noteIds: map<int, int>, labelIds: map<int, int>, ks: seq<NoteLabel>)
    ensures var o := ImportLinks(db, noteIds, labelIds, ks);
      var m := |o.db.noteLabels| - |db.noteLabels|;
      && 0 <= m <= |ks|
      && (o.error == None ==> m == |ks|)
      && o.db.lastNoteLabelId == db.lastNoteLabelId + m
      && o.db.noteLabels[..|db.noteLabels|] == db.noteLabels
      && (forall k :: 0 <= k < m ==>
            && Resolves(ks[k], noteIds, labelIds)
            && o.db.noteLabels[|db.noteLabels| + k] ==
                 ks[k].(id := db.lastNoteLabelId + k + 1, noteId := noteIds[ks[k].noteId],
                        labelId := labelIds[ks[k].labelId]))
  {
    if ks != [] {
      var n := |ks| - 1;
      var ks' := ks[..n];
      LinksStored(db, noteIds, labelIds, ks');
      var o' := ImportLinks(db, noteIds, labelIds, ks');
      var o := ImportLinks(db, noteIds, labelIds, ks);
      assert o == LinkStep(o', noteIds, labelIds, ks[n], n);
      assert forall k :: 0 <= k < n ==> ks'[k] == ks[k];
      if o'.error == None && Resolves(ks[n], noteIds, labelIds) {
        assert forall k :: 0 <= k < |o'.db.noteLabels| ==> o.db.noteLabels[k] == o'.db.noteLabels[k];
      }
    }
  }

  /** The link loop touches only its own table and adds one row per create. */
  lemma {:induction false} LinkFrame(db: Db, noteIds: map<int, int>, labelIds: map<int, int>, ks: seq<NoteLabel>)
    ensures var o := ImportLinks(db, noteIds, labelIds, ks);
      && o.db == db.(noteLabels := o.db.noteLabels, lastNoteLabelId := o.db.lastNoteLabelId, log := o.db.log)
      && |o.db.noteLabels| - |db.noteLabels| == |o.db.log| - |db.log|
  {
    if ks != [] {
      LinkFrame(db, noteIds, labelIds, ks[..|ks| - 1]);
    }
  }

  /**
   * The link loop keeps the store well formed, touches only the link table, adds one
   * row per create, and keeps references intact when the note and label tables point
   * at existing rows.
   */
  lemma {:induction false} LinkRows(db: Db, noteIds: map<int, int>, labelIds: map<int, int>, ks: seq<NoteLabel>)
    requires Valid(db)
    ensures var o := ImportLinks(db, noteIds, labelIds, ks);
      && Valid(o.db)
      && (Consistent(db) && MapsInto(noteIds, NoteKeys(db.notes)) && MapsInto(labelIds, LabelKeys(db.labels))
          ==> Consistent(o.db))
  {
    if ks != [] {
      var n := |ks| - 1;
      LinkRows(db, noteIds, labelIds, ks[..n]);
      LinkFrame(db, noteIds, labelIds, ks[..n]);
      var o' := ImportLinks(db, noteIds, labelIds, ks[..n]);
      if o'.error == None && Resolves(ks[n], noteIds, labelIds) {
        var c := ks[n].(id := 0, noteId := noteIds[ks[n].noteId], labelId := labelIds[ks[n].labelId]);
        CreateNoteLabelKeeps(o'.db, c);
      }
    }
  }

  /** Once the link loop has stopped, the remaining links change nothing. */
  lemma {:induction false} LinksStopped(db: Db, noteIds: map<int, int>, labelIds: map<int, int>, ks: seq<NoteLabel>, i: nat)
    requires i <= |ks| && ImportLinks(db, noteIds, labelIds, ks[..i]).error.Some?
    ensures ImportLinks(db, noteIds, labelIds, ks) == ImportLinks(db, noteIds, labelIds, ks[..i])
  {
    if i < |ks| {
      assert ks[..|ks| - 1][..i] == ks[..i];
      LinksStopped(db, noteIds, labelIds, ks[..|ks| - 1], i);
    } else {
      assert ks[..i] == ks;
    }
  }
}

=== FILE: note_label_phases.dfy ===
/**
 * Properties of the note loop and of the label loop of the import. The two
 * loops have the same shape: resolve the folder through the folder table,
 * create the re-keyed copy, record its new identifier.
 */
module NoteLabelPhases {
  import opened Entities
  import opened Store
  import opened Import

  /**
   * The note loop makes one create per note, in document order, after the existing
   * log. It runs to the end exactly when every note's folder identifier is in the
   * folder table; otherwise it stops at the first note whose folder identifier is
   * missing, reports that note's position and key, and the notes before it stay
   * created.
   */
  lemma {:induction false} NoteCalls(db: Db, folderIds: map<int, int>, ns: seq<Note>)
    ensures var o := ImportNotes(db, folderIds, ns);
      && db.log <= o.db.log
      && (o.error == None <==> forall k :: 0 <= k < |ns| ==> ns[k].folderId in folderIds)
      && (o.error == None ==> |o.db.log| == |db.log| + |ns|)
      && (o.error.Some? ==>
            && o.error.value.index < |ns|
            && o.error.value == NoteFolder(o.error.value.index, ns[o.error.value.index].folderId)
            && ns[o.error.value.index].folderId !in folderIds
            && (forall j :: 0 <= j < o.error.value.index ==> ns[j].folderId in folderIds)
            && |o.db.log| == |db.log| + o.error.value.index)
  {
    if ns != [] {
      var n := |ns| - 1;
      var ns' := ns[..n];
      NoteCalls(db, folderIds, ns');
      var o' := ImportNotes(db, folderIds, ns');
      var o := ImportNotes(db, folderIds, ns);
      assert o == NoteStep(o', folderIds, ns[n], n);
      assert forall k :: 0 <= k < n ==> ns'[k] == ns[k];
    }
  }

  /** After a complete note loop, the note table has an entry for exactly the document's note identifiers. */
  lemma {:induction false} NoteIdsCover(db: Db, folderIds: map<int, int>, ns: seq<Note>)
    ensures var o := ImportNotes(db, folderIds, ns);
      o.error == None ==> forall x :: x in o.ids <==> x in NoteKeys(ns)
  {
    if ns != [] {
      var n := |ns| - 1;
      NoteIdsCover(db, folderIds, ns[..n]);
      assert NoteKeys(ns) == NoteKeys(ns[..n]) + [ns[n].id];
    }
  }

  /**
   * Each note the loop reached is created as the copy with identifier 0 and its
   * folder identifier taken from the folder table, and the note table maps its
   * document identifier to the identifier that create returned (document note
   * identifiers distinct).
   */
  lemma {:induction false} NoteWrites(db: Db, folderIds: map<int, int>, ns: seq<Note>)
    requires Distinct(NoteKeys(ns))
    ensures var o := ImportNotes(db, folderIds, ns);
      forall k :: 0 <= k < |ns| && |db.log| + k < |o.db.log| ==>
        && ns[k].folderId in folderIds && ns[k].id in o.ids
        && o.db.log[|db.log| + k] ==
             NoteCreated(ns[k].(id := 0, folderId := folderIds[ns[k].folderId]), o.ids[ns[k].id])
  {
    if ns != [] {
      var n := |ns| - 1;
      var ns' := ns[..n];
      assert NoteKeys(ns) == NoteKeys(ns') + [ns[n].id];
      NoteKeysDropLast(ns);
      NoteWrites(db, folderIds, ns');
      NoteCalls(db, folderIds, ns');
      var o' := ImportNotes(db, folderIds, ns');
      var o := ImportNotes(db, folderIds, ns);
      assert o == NoteStep(o', folderIds, ns[n], n);
      if o'.error == None && ns[n].folderId in folderIds {
        forall k | 0 <= k < n ensures o.ids[ns[k].id] == o'.ids[ns[k].id] && ns'[k] == ns[k] {
          assert NoteKeys(ns)[k] == ns[k].id && NoteKeys(ns)[n] == ns[n].id;
        }
      }
    }
  }

  /**
   * Every note the loop reached is logged as a create of the copy with identifier 0
   * and its folder identifier taken from the folder table, and that create returns
   * the next note identifier. This holds for every document, repeated identifiers
   * included.
   */
  lemma {:induction false} NoteArgs(db: Db, folderIds: map<int, int>, ns: seq<Note>)
    ensures var o := ImportNotes(db, folderIds, ns);
      forall k :: 0 <= k < |ns| && |db.log| + k < |o.db.log| ==>
        && ns[k].folderId in folderIds
        && o.db.log[|db.log| + k] ==
             NoteCreated(ns[k].(id := 0, folderId := folderIds[ns[k].folderId]), db.lastNoteId + k + 1)
  {
    if ns != [] {
      var n := |ns| - 1;
      var ns' := ns[..n];
      NoteArgs(db, folderIds, ns');
      NoteCalls(db, folderIds, ns');
      NoteFrame(db, folderIds, ns');
      NotesStored(db, folderIds, ns');
      var o' := ImportNotes(db, folderIds, ns');
      var o := ImportNotes(db, folderIds, ns);
      assert o == NoteStep(o', folderIds, ns[n], n);
      assert forall k :: 0 <= k < n ==> ns'[k] == ns[k];
      assert forall k :: 0 <= k < |o'.db.log| ==> o.db.log[k] == o'.db.log[k];
    }
  }

  /**
   * The note loop appends one row per note it reached, in document order: the
   * document note with the next note identifier and its folder identifier taken
   * from the folder table; the rows already there stay.
   */
  lemma {:induction false} NotesStored(db: Db, folderIds: map<int, int>, ns: seq<Note>)
    ensures var o := ImportNotes(db, folderIds, ns);
      var m := |o.db.notes| - |db.notes|;
      && 0 <= m <= |ns|
      && (o.error == None ==> m == |ns|)
      && o.db.lastNoteId == db.lastNoteId + m
      && o.db.notes[..|db.notes|] == db.notes
      && (forall k :: 0 <= k < m ==>
            && ns[k].folderId in folderIds
            && o.db.notes[|db.notes| + k] ==
                 ns[k].(id := db.lastNoteId + k + 1, folderId := folderIds[ns[k].folderId]))
  {
    if ns != [] {
      var n := |ns| - 1;
      var ns' := ns[..n];
      NotesStored(db, folderIds, ns');
      var o' := ImportNotes(db, folderIds, ns');
      var o := ImportNotes(db, folderIds, ns);
      assert o == NoteStep(o', folderIds, ns[n], n);
      assert forall k :: 0 <= k < n ==> ns'[k] == ns[k];
      if o'.error.Some? || ns[n].folderId !in folderIds {
        assert o.db == o'.db && o.error.Some?;
      } else {
        var row := ns[n].(id := db.lastNoteId + n + 1, folderId := folderIds[ns[n].folderId]);
        assert |o'.db.notes| == |db.notes| + n;
        assert o.db.notes == o'.db.notes + [row] && o.db.lastNoteId == o'.db.lastNoteId + 1;
      }
    }
  }

  /**
   * With distinct document note identifiers, the note table maps the k-th note the
   * loop reached to the k-th identifier after the counter the loop started from.
   */
  lemma {:induction false} NoteIdsNumbered(db: Db, folderIds: map<int, int>, ns: seq<Note>)
    requires Distinct(NoteKeys(ns))
    ensures var o := ImportNotes(db, folderIds, ns);
      forall k :: 0 <= k < |ns| && |db.log| + k < |o.db.log| ==>
        ns[k].id in o.ids && o.ids[ns[k].id] == db.lastNoteId + k + 1
  {
    NoteWrites(db, folderIds, ns);
    NoteArgs(db, folderIds, ns);
  }

  /** One note of a completed note loop: its create call and its note table entry. */
  lemma {:induction false} NoteRecord(db: Db, folderIds: map<int, int>, ns: seq<Note>, k: nat)
    requires Distinct(NoteKeys(ns)) && k < |ns|
    requires ImportNotes(db, folderIds, ns).error == None
    ensures var o := ImportNotes(db, folderIds, ns);
      && ns[k].folderId in folderIds && ns[k].id in o.ids
      && |db.log| + k < |o.db.log|
      && o.db.log[|db.log| + k] ==
           NoteCreated(ns[k].(id := 0, folderId := folderIds[ns[k].folderId]), o.ids[ns[k].id])
  {
    NoteCalls(db, folderIds, ns);
    NoteWrites(db, folderIds, ns);
  }

  /** The note loop touches only its own table and adds one row per create. */
  lemma {:induction false} NoteFrame(db: Db, folderIds: map<int, int>, ns: seq<Note>)
    ensures var o := ImportNotes(db, folderIds, ns);
      && o.db == db.(notes := o.db.notes, lastNoteId := o.db.lastNoteId, log := o.db.log)
      && |o.db.notes| - |db.notes| == |o.db.log| - |db.log|
  {
    if ns != [] {
      NoteFrame(db, folderIds, ns[..|ns| - 1]);
    }
  }

  /**
   * The note loop keeps the store well formed, touches only the note table, adds one
   * row per create, and keeps references intact when the folder table points at
   * existing folders; every entry of the note table names an existing note.
   */
  lemma {:induction false} NoteRows(db: Db, folderIds: map<int, int>, ns: seq<Note>)
    requires Valid(db)
    ensures var o := ImportNotes(db, folderIds, ns);
      && Valid(o.db)
      && (Consistent(db) && MapsInto(folderIds, FolderKeys(db.folders)) ==> Consistent(o.db))
      && MapsInto(o.ids, NoteKeys(o.db.notes))
  {
    if ns != [] {
      var n := |ns| - 1;
      NoteRows(db, folderIds, ns[..n]);
      NoteFrame(db, folderIds, ns[..n]);
      var o' := ImportNotes(db, folderIds, ns[..n]);
      if o'.error == None && ns[n].folderId in folderIds {
        var c := ns[n].(id := 0, folderId := folderIds[ns[n].folderId]);
        CreateNoteKeeps(o'.db, c);
      }
    }
  }

  /** Once the note loop has stopped, the remaining notes change nothing. */
  lemma {:induction false} NotesStopped(db: Db, folderIds: map<int, int>, ns: seq<Note>, i: nat)
    requires i <= |ns| && ImportNotes(db, folderIds, ns[..i]).error.Some?
    ensures ImportNotes(db, folderIds, ns) == ImportNotes(db, folderIds, ns[..i])
  {
    if i < |ns| {
      assert ns[..|ns| - 1][..i] == ns[..i];
      NotesStopped(db, folderIds, ns[..|ns| - 1], i);
    } else {
      assert ns[..i] == ns;
    }
  }
  /**
   * The label loop makes one create per label, in document order, after the existing
   * log. It runs to the end exactly when every label's folder identifier is in the
   * folder table; otherwise it stops at the first label whose folder identifier is
   * missing, reports that label's position and key, and the labels before it stay
   * created.
   */
  lemma {:induction false} LabelCalls(db: Db, folderIds: map<int, int>, ls: seq<Label>)
    ensures var o := ImportLabels(db, folderIds, ls);
      && db.log <= o.db.log
      && (o.error == None <==> forall k :: 0 <= k < |ls| ==> ls[k].folderId in folderIds)
      && (o.error == None ==> |o.db.log| == |db.log| + |ls|)
      && (o.error.Some? ==>
            && o.error.value.index < |ls|
            && o.error.value == LabelFolder(o.error.value.index, ls[o.error.value.index].folderId)
            && ls[o.error.value.index].folderId !in folderIds
            && (forall j :: 0 <= j < o.error.value.index ==> ls[j].folderId in folderIds)
            && |o.db.log| == |db.log| + o.error.value.index)
  {
    if ls != [] {
      var n := |ls| - 1;
      var ls' := ls[..n];
      LabelCalls(db, folderIds, ls');
      var o' := ImportLabels(db, folderIds, ls');
      var o := ImportLabels(db, folderIds, ls);
      assert o == LabelStep(o', folderIds, ls[n], n);
      assert forall k :: 0 <= k < n ==> ls'[k] == ls[k];
    }
  }

  /** After a complete label loop, the label table has an entry for exactly the document's label identifiers. */
  lemma {:induction false} LabelIdsCover(db: Db, folderIds: map<int, int>, ls: seq<Label>)
    ensures var o := ImportLabels(db, folderIds, ls);
      o.error == None ==> forall x :: x in o.ids <==> x in LabelKeys(ls)
  {
    if ls != [] {
      var n := |ls| - 1;
      LabelIdsCover(db, folderIds, ls[..n]);
      assert LabelKeys(ls) == LabelKeys(ls[..n]) + [ls[n].id];
    }
  }

  /**
   * Each label the loop reached is created as the copy with identifier 0 and its
   * folder identifier taken from the folder table, and the label table maps its
   * document identifier to the identifier that create returned (document label
   * identifiers distinct).
   */
  lemma {:induction false} LabelWrites(db: Db, folderIds: map<int, int>, ls: seq<Label>)
    requires Distinct(LabelKeys(ls))
    ensures var o := ImportLabels(db, folderIds, ls);
      forall k :: 0 <= k < |ls| && |db.log| + k < |o.db.log| ==>
        && ls[k].folderId in folderIds && ls[k].id in o.ids
        && o.db.log[|db.log| + k] ==
             LabelCreated(ls[k].(id := 0, folderId := folderIds[ls[k].folderId]), o.ids[ls[k].id])
  {
    if ls != [] {
      var n := |ls| - 1;
      var ls' := ls[..n];
      assert LabelKeys(ls) == LabelKeys(ls') + [ls[n].id];
      LabelKeysDropLast(ls);
      LabelWrites(db, folderIds, ls');
      LabelCalls(db, folderIds, ls');
      var o' := ImportLabels(db, folderIds, ls');
      var o := ImportLabels(db, folderIds, ls);
      assert o == LabelStep(o', folderIds, ls[n], n);
      if o'.error == None && ls[n].folderId in folderIds {
        forall k | 0 <= k < n ensures o.ids[ls[k].id] == o'.ids[ls[k].id] && ls'[k] == ls[k] {
          assert LabelKeys(ls)[k] == ls[k].id && LabelKeys(ls)[n] == ls[n].id;
        }
      }
    }
  }

  /**
   * Every label the loop reached is logged as a create of the copy with identifier 0
   * and its folder identifier taken from the folder table, and that create returns
   * the next label identifier. This holds for every document, repeated identifiers
   * included.
   */
  lemma {:induction false} LabelArgs(db: Db, folderIds: map<int, int>, ls: seq<Label>)
    ensures var o := ImportLabels(db, folderIds, ls);
      forall k :: 0 <= k < |ls| && |db.log| + k < |o.db.log| ==>
        && ls[k].folderId in folderIds
        && o.db.log[|db.log| + k] ==
             LabelCreated(ls[k].(id := 0, folderId := folderIds[ls[k].folderId]), db.lastLabelId + k + 1)
  {
    if ls != [] {
      var n := |ls| - 1;
      var ls' := ls[..n];
      LabelArgs(db, folderIds, ls');
      LabelCalls(db, folderIds, ls');
      LabelFrame(db, folderIds, ls');
      LabelsStored(db, folderIds, ls');
      var o' := ImportLabels(db, folderIds, ls');
      var o := ImportLabels(db, folderIds, ls);
      assert o == LabelStep(o', folderIds, ls[n], n);
      assert forall k :: 0 <= k < n ==> ls'[k] == ls[k];
      assert forall k :: 0 <= k < |o'.db.log| ==> o.db.log[k] == o'.db.log[k];
    }
  }

  /**
   * The label loop appends one row per label it reached, in document order: the
   * document label with the next label identifier and its folder identifier taken
   * from the folder table; the rows already there stay.
   */
  lemma {:induction false} LabelsStored(db: Db, folderIds: map<int, int>, ls: seq<Label>)
    ensures var o := ImportLabels(db, folderIds, ls);
      var m := |o.db.labels| - |db.labels|;
      && 0 <= m <= |ls|
      && (o.error == None ==> m == |ls|)
      && o.db.lastLabelId == db.lastLabelId + m
      && o.db.labels[..|db.labels|] == db.labels
      && (forall k :: 0 <= k < m ==>
            && ls[k].folderId in folderIds
            && o.db.labels[|db.labels| + k] ==
                 ls[k].(id := db.lastLabelId + k + 1, folderId := folderIds[ls[k].folderId]))
  {
    if ls != [] {
      var n := |ls| - 1;
      var ls' := ls[..n];
      LabelsStored(db, folderIds, ls');
      var o' := ImportLabels(db, folderIds, ls');
      var o := ImportLabels(db, folderIds, ls);
      assert o == LabelStep(o', folderIds, ls[n], n);
      assert forall k :: 0 <= k < n ==> ls'[k] == ls[k];
      if o'.error.Some? || ls[n].folderId !in folderIds {
        assert o.db == o'.db && o.error.Some?;
      } else {
        var row := ls[n].(id := db.lastLabelId + n + 1, folderId := folderIds[ls[n].folderId]);
        assert |o'.db.labels| == |db.labels| + n;
        assert o.db.labels == o'.db.labels + [row] && o.db.lastLabelId == o'.db.lastLabelId + 1;
      }
    }
  }

  /**
   * With distinct document label identifiers, the label table maps the k-th label the
   * loop reached to the k-th identifier after the counter the loop started from.
   */
  lemma {:induction false} LabelIdsNumbered(db: Db, folderIds: map<int, int>, ls: seq<Label>)
    requires Distinct(LabelKeys(ls))
    ensures var o := ImportLabels(db, folderIds, ls);
      forall k :: 0 <= k < |ls| && |db.log| + k < |o.db.log| ==>
        ls[k].id in o.ids && o.ids[ls[k].id] == db.lastLabelId + k + 1
  {
    LabelWrites(db, folderIds, ls);
    LabelArgs(db, folderIds, ls);
  }

  /** One label of a completed label loop: its create call and its label table entry. */
  lemma {:induction false} LabelRecord(db: Db, folderIds: map<int, int>, ls: seq<Label>, k: nat)
    requires Distinct(LabelKeys(ls)) && k < |ls|
    requires ImportLabels(db, folderIds, ls).error == None
    ensures var o := ImportLabels(db, folderIds, ls);
      && ls[k].folderId in folderIds && ls[k].id in o.ids
      && |db.log| + k < |o.db.log|
      && o.db.log[|db.log| + k] ==
           LabelCreated(ls[k].(id := 0, folderId := folderIds[ls[k].folderId]), o.ids[ls[k].id])
  {
    LabelCalls(db, folderIds, ls);
    LabelWrites(db, folderIds, ls);
  }

  /** The label loop touches only its own table and adds one row per create. */
  lemma {:induction false} LabelFrame(db: Db, folderIds: map<int, int>, ls: seq<Label>)
    ensures var o := ImportLabels(db, folderIds, ls);
      && o.db == db.(labels := o.db.labels, lastLabelId := o.db.lastLabelId, log := o.db.log)
      && |o.db.labels| - |db.labels| == |o.db.log| - |db.log|
  {
    if ls != [] {
      LabelFrame(db, folderIds, ls[..|ls| - 1]);
    }
  }

  /**
   * The label loop keeps the store well formed, touches only the label table, adds one
   * row per create, and keeps references intact when the folder table points at
   * existing folders; every entry of the label table names an existing label.
   */
  lemma {:induction false} LabelRows(db: Db, folderIds: map<int, int>, ls: seq<Label>)
    requires Valid(db)
    ensures var o := ImportLabels(db, folderIds, ls);
      && Valid(o.db)
      && (Consistent(db) && MapsInto(folderIds, FolderKeys(db.folders)) ==> Consistent(o.db))
      && MapsInto(o.ids, LabelKeys(o.db.labels))
  {
    if ls != [] {
      var n := |ls| - 1;
      LabelRows(db, folderIds, ls[..n]);
      LabelFrame(db, folderIds, ls[..n]);
      var o' := ImportLabels(db, folderIds, ls[..n]);
      if o'.error == None && ls[n].folderId in folderIds {
        var c := ls[n].(id := 0, folderId := folderIds[ls[n].folderId]);
        CreateLabelKeeps(o'.db, c);
      }
    }
  }

  /** Once the label loop has stopped, the remaining labels change nothing. */
  lemma {:induction false} LabelsStopped(db: Db, folderIds: map<int, int>, ls: seq<Label>, i: nat)
    requires i <= |ls| && ImportLabels(db, folderIds, ls[..i]).error.Some?
    ensures ImportLabels(db, folderIds, ls) == ImportLabels(db, folderIds, ls[..i])
  {
    if i < |ls| {
      assert ls[..|ls| - 1][..i] == ls[..i];
      LabelsStopped(db, folderIds, ls[..|ls| - 1], i);
    } else {
      assert ls[..i] == ls;
    }
  }
}

=== FILE: repositories.dfy ===
/**
 * The repositories as one object updated in place. Each method performs one
 * repository call and is specified by the function of the same name on Store.Db.
 */
module Repositories {
  import opened Entities
  import Store

  class LocalStore {
    var folders: seq<Folder>
    var notes: seq<Note>
    var labels: seq<Label>
    var noteLabels: seq<NoteLabel>
    var settings: Settings
    var lastFolderId: int
    var lastNoteId: int
    var lastLabelId: int
    var lastNoteLabelId: int
    ghost var log: seq<Store.Write>

    ghost function Snapshot(): Store.Db
      reads this
    {
      Store.Db(folders, notes, labels, noteLabels, settings,
         lastFolderId, lastNoteId, lastLabelId, lastNoteLabelId, log)
    }

    ghost predicate Valid()
      reads this
    {
      Store.Valid(Snapshot())
    }

    /** A store holding only the general folder. */
    constructor (general: Folder, config: Settings)
      requires general.id == GeneralFolderId
      ensures Valid() && Store.Consistent(Snapshot())
      ensures folders == [general] && notes == [] && labels == [] && noteLabels == []
      ensures settings == config && log == []
    {
      folders := [general];
      notes, labels, noteLabels := [], [], [];
      settings := config;
      lastFolderId := GeneralFolderId;
      lastNoteId, lastLabelId, lastNoteLabelId := 0, 0, 0;
      log := [];
      assert FolderKeys([general]) == [GeneralFolderId];
    }

    method CreateFolder(f: Folder) returns (id: int)
      requires Valid() && f.id == 0
      modifies this
      ensures Valid()
      ensures (Snapshot(), id) == Store.CreateFolder(old(Snapshot()), f)
    {
      ghost var r := Store.CreateFolder(Snapshot(), f);
      Store.CreateFolderKeeps(Snapshot(), f);
      id := lastFolderId + 1;
      folders := folders + [f.(id := id)];
      lastFolderId := id;
      log := log + [Store.FolderCreated(f, id)];
      assert Snapshot() == r.0;
    }

    method UpdateFolder(f: Folder)
      requires Valid()
      modifies this
      ensures Valid()
      ensures Snapshot() == Store.UpdateFolder(old(Snapshot()), f)
    {
      Store.UpdateFolderKeeps(Snapshot(), f);
      folders := Store.ReplaceFolder(folders, f);
      log := log + [Store.FolderUpdated(f)];
    }

    method CreateNote(n: Note) returns (id: int)
      requires Valid() && n.id == 0
      modifies this
      ensures Valid()
      ensures (Snapshot(), id) == Store.CreateNote(old(Snapshot()), n)
    {
      ghost var r := Store.CreateNote(Snapshot(), n);
      Store.CreateNoteKeeps(Snapshot(), n);
      id := lastNoteId + 1;
      notes := notes + [n.(id := id)];
      lastNoteId := id;
      log := log + [Store.NoteCreated(n, id)];
      assert Snapshot() == r.0;
    }

    method CreateLabel(l: Label) returns (id: int)
      requires Valid() && l.id == 0
      modifies this
      ensures Valid()
      ensures (Snapshot(), id) == Store.CreateLabel(old(Snapshot()), l)
    {
      ghost var r := Store.CreateLabel(Snapshot(), l);
      Store.CreateLabelKeeps(Snapshot(), l);
      id := lastLabelId + 1;
      labels := labels + [l.(id := id)];
      lastLabelId := id;
      log := log + [Store.LabelCreated(l, id)];
      assert Snapshot() == r.0;
    }

    method CreateNoteLabel(nl: NoteLabel) returns (id: int)
      requires Valid() && nl.id == 0
      modifies this
      ensures Valid()
      ensures (Snapshot(), id) == Store.CreateNoteLabel(old(Snapshot()), nl)
    {
      ghost var r := Store.CreateNoteLabel(Snapshot(), nl);
      Store.CreateNoteLabelKeeps(Snapshot(), nl);
      id := lastNoteLabelId + 1;
      noteLabels := noteLabels + [nl.(id := id)];
      lastNoteLabelId := id;
      log := log + [Store.NoteLabelCreated(nl, id)];
      assert Snapshot() == r.0;
    }

    method UpdateConfig(s: Settings)
      requires Valid()
      modifies this
      ensures Valid()
      ensures Snapshot() == Store.UpdateConfig(old(Snapshot()), s)
    {
      settings := s;
      log := log + [Store.ConfigUpdated(s)];
    }

    method UpdateFlag(flag: Flag, value: bool)
      requires Valid()
      modifies this
      ensures Valid()
      ensures Snapshot() == Store.UpdateFlag(old(Snapshot()), flag, value)
    {
      settings := SetFlag(settings, flag, value);
      log := log + [Store.FlagUpdated(flag, value)];
    }
  }
}

=== FILE: settings_view_model.dfy ===
/**
 * The settings screen's view model: the boolean settings it shows, the
 * toggles that write their negation back, and the export and import of the
 * backup document. The repositories are one LocalStore; each method makes the
 * repository calls the screen makes, in the same order, and is specified by
 * the functions of Import and Store.
 */
module ViewModel {
  import opened Entities
  import Store
  import Repositories
  import opened Import
  import NoteLabelPhases
  import LinkPhase
  import ImportProperties

  class SettingsViewModel {
    const store: Repositories.LocalStore

    // The last value each boolean setting's observed stream holds; before the
    // stream has delivered anything, its declared starting value.
    var isShowNotesCount: bool
    var isDoNotDisturb: bool
    var isScreenOn: bool
    var isFullScreen: bool
    var isBioAuthEnabled: bool

    /** The value the screen currently shows for a flag. */
    function Shown(flag: Flag): bool
      reads this
    {
      match flag
      case ShowNotesCount => isShowNotesCount
      case DoNotDisturb => isDoNotDisturb
      case ScreenOn => isScreenOn
      case FullScreen => isFullScreen
      case BioAuthEnabled => isBioAuthEnabled
    }

    /** Every shown flag is the one stored. */
    predicate InSync()
      reads this, store
    {
      forall flag :: Shown(flag) == FlagValue(store.settings, flag)
    }

    /** A view model over the given repositories, showing the streams' starting values. */
    constructor (store: Repositories.LocalStore)
      ensures this.store == store
      ensures Shown(ShowNotesCount) && !Shown(DoNotDisturb) && Shown(ScreenOn)
      ensures Shown(FullScreen) && !Shown(BioAuthEnabled)
    {
      this.store := store;
      isShowNotesCount := true;
      isDoNotDisturb := false;
      isScreenOn := true;
      isFullScreen := true;
      isBioAuthEnabled := false;
    }

    /** The streams deliver the stored settings: every shown flag becomes the stored one. */
    method Observe()
      modifies this
      ensures InSync()
    {
      isShowNotesCount := store.settings.isShowNotesCount;
      isDoNotDisturb := store.settings.isDoNotDisturb;
      isScreenOn := store.settings.isScreenOn;
      isFullScreen := store.settings.isFullScreen;
      isBioAuthEnabled := store.settings.isBioAuthEnabled;
    }

    /**
     * toggleShowNotesCount, toggleDoNotDisturb, toggleScreenOn, toggleFullScreen and
     * toggleIsBioAuthEnabled: write the negation of the shown value. When the screen
     * is in sync, the stored flag is flipped and nothing else in the settings changes;
     * the shown value waits for the stream to deliver it.
     */
    method Toggle(flag: Flag)
      requires store.Valid()
      modifies store
      ensures store.Valid()
      ensures store.Snapshot() == Store.UpdateFlag(old(store.Snapshot()), flag, !Shown(flag))
      ensures old(InSync()) ==>
        && FlagValue(store.settings, flag) == !old(FlagValue(store.settings, flag))
        && (forall g :: g != flag ==> FlagValue(store.settings, g) == old(FlagValue(store.settings, g)))
    {
      store.UpdateFlag(flag, !Shown(flag));
    }

    /**
     * exportJson before encoding: every table and the settings as they are. From a
     * well-formed, consistent store the document has no repeated identifiers and no
     * dangling reference, so importing it runs to the end.
     */
    method ExportJson() returns (data: NotoData)
      ensures data == Export(store.Snapshot())
      ensures store.Valid() && Store.Consistent(store.Snapshot()) ==>
        && Closed(data)
        && Distinct(FolderKeys(data.folders)) && Distinct(NoteKeys(data.notes))
        && Distinct(LabelKeys(data.labels))
    {
      data := NotoData(store.folders, store.notes, store.labels, store.noteLabels, store.settings);
      if store.Valid() && Store.Consistent(store.Snapshot()) {
        ImportProperties.ExportImport(store.Snapshot(), store.Snapshot(), _ => false);
      }
    }

    /**
     * importJson after decoding: the folder, note, label and link loops, then the
     * settings overwrite. A reference missing from its identifier table stops the
     * import there and is returned; the calls made before it stay in effect.
     */
    method ImportJson(data: NotoData, isGeneral: Folder -> bool) returns (error: Option<Dangling>)
      requires store.Valid()
      modifies store
      ensures store.Valid()
      ensures var r := ImportData(old(store.Snapshot()), data, isGeneral);
        store.Snapshot() == r.db && error == r.error
      ensures error == None <==> Closed(data)
      ensures Store.Consistent(old(store.Snapshot())) ==> Store.Consistent(store.Snapshot())
    {
      ghost var db0 := store.Snapshot();
      ImportProperties.ImportSucceedsIff(db0, data, isGeneral);
      ImportProperties.ImportKeepsStore(db0, data, isGeneral);
      var folderIds := CopyFolders(data.folders, isGeneral);
      var noteIds;
      noteIds, error := CopyNotes(folderIds, data.notes);
      if error.Some? {
        return;
      }
      var labelIds;
      labelIds, error := CopyLabels(folderIds, data.labels);
      if error.Some? {
        return;
      }
      error := CopyLinks(noteIds, labelIds, data.noteLabels);
      if error.Some? {
        return;
      }
      store.UpdateConfig(data.settings);
    }

    /** The folder loop: merge each general folder into the live one, re-create every other. */
    method CopyFolders(fs: seq<Folder>, isGeneral: Folder -> bool) returns (folderIds: map<int, int>)
      requires store.Valid()
      modifies store
      ensures store.Valid()
      ensures ImportFolders(old(store.Snapshot()), fs, isGeneral) == Phase(store.Snapshot(), folderIds, None)
    {
      ghost var db := store.Snapshot();
      folderIds := map[];
      for i := 0 to |fs|
        invariant store.Valid()
        invariant ImportFolders(db, fs[..i], isGeneral) == Phase(store.Snapshot(), folderIds, None)
      {
        var folder := fs[i];
        assert fs[..i + 1][..i] == fs[..i];
        if isGeneral(folder) {
          store.UpdateFolder(folder);
          folderIds := folderIds[folder.id := GeneralFolderId];
        } else {
          var newId := store.CreateFolder(folder.(id := 0));
          folderIds := folderIds[folder.id := newId];
        }
      }
      assert fs[..|fs|] == fs;
    }

    /** The note loop: re-create each note in its re-keyed folder, or stop at a missing folder. */
    method CopyNotes(folderIds: map<int, int>, ns: seq<Note>) returns (noteIds: map<int, int>, error: Option<Dangling>)
      requires store.Valid()
      modifies store
      ensures store.Valid()
      ensures ImportNotes(old(store.Snapshot()), folderIds, ns) == Phase(store.Snapshot(), noteIds, error)
    {
      ghost var db := store.Snapshot();
      noteIds, error := map[], None;
      for i := 0 to |ns|
        invariant store.Valid()
        invariant ImportNotes(db, folderIds, ns[..i]) == Phase(store.Snapshot(), noteIds, None)
      {
        var note := ns[i];
        assert ns[..i + 1][..i] == ns[..i];
        if note.folderId !in folderIds {
          error := Some(NoteFolder(i, note.folderId));
          NoteLabelPhases.NotesStopped(db, folderIds, ns, i + 1);
          return;
        }
        var newId := store.CreateNote(note.(id := 0, folderId := folderIds[note.folderId]));
        noteIds := noteIds[note.id := newId];
      }
      assert ns[..|ns|] == ns;
    }

    /** The label loop: re-create each label in its re-keyed folder, or stop at a missing folder. */
    method CopyLabels(folderIds: map<int, int>, ls: seq<Label>) returns (labelIds: map<int, int>, error: Option<Dangling>)
      requires store.Valid()
      modifies store
      ensures store.Valid()
      ensures ImportLabels(old(store.Snapshot()), folderIds, ls) == Phase(store.Snapshot(), labelIds, error)
    {
      ghost var db := store.Snapshot();
      labelIds, error := map[], None;
      for i := 0 to |ls|
        invariant store.Valid()
        invariant ImportLabels(db, folderIds, ls[..i]) == Phase(store.Snapshot(), labelIds, None)
      {
        var l := ls[i];
        assert ls[..i + 1][..i] == ls[..i];
        if l.folderId !in folderIds {
          error := Some(LabelFolder(i, l.folderId));
          NoteLabelPhases.LabelsStopped(db, folderIds, ls, i + 1);
          return;
        }
        var newId := store.CreateLabel(l.(id := 0, folderId := folderIds[l.folderId]));
        labelIds := labelIds[l.id := newId];
      }
      assert ls[..|ls|] == ls;
    }

    /**
     * The link loop: re-create each link between its re-keyed note and label, or stop
     * at the first link whose note, then whose label, is missing.
     */
    method CopyLinks(noteIds: map<int, int>, labelIds: map<int, int>, ks: seq<NoteLabel>) returns (error: Option<Dangling>)
      requires store.Valid()
      modifies store
      ensures store.Valid()
      ensures ImportLinks(old(store.Snapshot()), noteIds, labelIds, ks) == Phase(store.Snapshot(), map[], error)
    {
      ghost var db := store.Snapshot();
      error := None;
      for i := 0 to |ks|
        invariant store.Valid()
        invariant ImportLinks(db, noteIds, labelIds, ks[..i]) == Phase(store.Snapshot(), map[], None)
      {
        var link := ks[i];
        assert ks[..i + 1][..i] == ks[..i];
        if link.noteId !in noteIds {
          error := Some(LinkNote(i, link.noteId));
          LinkPhase.LinksStopped(db, noteIds, labelIds, ks, i + 1);
          return;
        }
        if link.labelId !in labelIds {
          error := Some(LinkLabel(i, link.labelId));
          LinkPhase.LinksStopped(db, noteIds, labelIds, ks, i + 1);
          return;
        }
        var _ := store.CreateNoteLabel(link.(id := 0, noteId := noteIds[link.noteId], labelId := labelIds[link.labelId]));
      }
      assert ks[..|ks|] == ks;
    }
  }
}

=== FILE: store.dfy ===
/**
 * The repositories the settings screen talks to (folders, notes, labels,
 * note-labels, settings), as one store. Each table keeps its rows in
 * identifier order; identifiers are assigned by an auto-increment counter
 * per table and are never reused. Every repository call is recorded in a
 * write log, so that the order and the arguments of the calls an operation
 * makes can be stated.
 *
 * The pure functions on Db say what each repository call does; the class
 * LocalStore in module Repositories performs the same calls in place and is
 * specified by them.
 */
module Store {
  import opened Entities

  /** One repository call, with the record passed and, for a create, the identifier returned. */
  datatype Write =
    | FolderCreated(folder: Folder, newId: int)
    | FolderUpdated(folder: Folder)
    | NoteCreated(note: Note, newId: int)
    | LabelCreated(labelRow: Label, newId: int)
    | NoteLabelCreated(noteLabel: NoteLabel, newId: int)
    | ConfigUpdated(settings: Settings)
    | FlagUpdated(flag: Flag, value: bool)

  /** The whole store as a value. */
  datatype Db = Db(
    folders: seq<Folder>,
    notes: seq<Note>,
    labels: seq<Label>,
    noteLabels: seq<NoteLabel>,
    settings: Settings,
    lastFolderId: int,
    lastNoteId: int,
    lastLabelId: int,
    lastNoteLabelId: int,
    log: seq<Write>)

  /** A table's identifier column: positive, strictly increasing, and never above the counter. */
  predicate KeyColumn(ks: seq<int>, last: int) {
    && 0 <= last
    && (forall i :: 0 <= i < |ks| ==> 0 < ks[i] <= last)
    && (forall i, j :: 0 <= i < j < |ks| ==> ks[i] < ks[j])
  }

  /** The store's own invariant: well-formed identifier columns and the general folder present. */
  predicate Valid(db: Db) {
    && KeyColumn(FolderKeys(db.folders), db.lastFolderId)
    && KeyColumn(NoteKeys(db.notes), db.lastNoteId)
    && KeyColumn(LabelKeys(db.labels), db.lastLabelId)
    && KeyColumn(NoteLabelKeys(db.noteLabels), db.lastNoteLabelId)
    && GeneralFolderId in FolderKeys(db.folders)
  }

  /** Referential integrity: every foreign key names an existing row. */
  predicate Consistent(db: Db) {
    && (forall n :: n in db.notes ==> n.folderId in FolderKeys(db.folders))
    && (forall l :: l in db.labels ==> l.folderId in FolderKeys(db.folders))
    && (forall nl :: nl in db.noteLabels ==>
          nl.noteId in NoteKeys(db.notes) && nl.labelId in LabelKeys(db.labels))
  }

  /** A counter bumped past a well-formed column leaves it well-formed, and the new key is fresh. */
  lemma {:induction false} KeyColumnAppend(ks: seq<int>, last: int)
    ensures KeyColumn(ks, last) ==>
      KeyColumn(ks + [last + 1], last + 1) && KeyColumn(ks, last + 1) && last + 1 !in ks
  {
    if KeyColumn(ks, last) {
      var ks' := ks + [last + 1];
      assert forall i :: 0 <= i < |ks| ==> ks'[i] == ks[i] < last + 1;
      forall i, j | 0 <= i < j < |ks'| ensures ks'[i] < ks'[j] {
        if j < |ks| { assert ks'[i] == ks[i] && ks'[j] == ks[j]; }
      }
    }
  }

  // ---- the repository calls ----

  /** createFolder: store the record under the next identifier and return that identifier. */
  function CreateFolder(db: Db, f: Folder): (Db, int)
    requires f.id == 0
  {
    var id := db.lastFolderId + 1;
    (db.(folders := db.folders + [f.(id := id)], lastFolderId := id, log := db.log + [FolderCreated(f, id)]), id)
  }

  /** The rows with every row whose identifier is f.id replaced by f. */
  function ReplaceFolder(rows: seq<Folder>, f: Folder): seq<Folder> {
    seq(|rows|, i requires 0 <= i < |rows| => if rows[i].id == f.id then f else rows[i])
  }

  /**
   * updateFolder: full-record replace of the row carrying f's identifier. When no
   * row carries it, the tables do not change (an update of zero rows).
   */
  function UpdateFolder(db: Db, f: Folder): Db {
    db.(folders := ReplaceFolder(db.folders, f), log := db.log + [FolderUpdated(f)])
  }

  /** createNote: store the record under the next identifier and return that identifier. */
  function CreateNote(db: Db, n: Note): (Db, int)
    requires n.id == 0
  {
    var id := db.lastNoteId + 1;
    (db.(notes := db.notes + [n.(id := id)], lastNoteId := id, log := db.log + [NoteCreated(n, id)]), id)
  }

  /** createLabel: store the record under the next identifier and return that identifier. */
  function CreateLabel(db: Db, l: Label): (Db, int)
    requires l.id == 0
  {
    var id := db.lastLabelId + 1;
    (db.(labels := db.labels + [l.(id := id)], lastLabelId := id, log := db.log + [LabelCreated(l, id)]), id)
  }

  /** createNoteLabel: store the link under the next identifier and return that identifier. */
  function CreateNoteLabel(db: Db, nl: NoteLabel): (Db, int)
    requires nl.id == 0
  {
    var id := db.lastNoteLabelId + 1;
    (db.(noteLabels := db.noteLabels + [nl.(id := id)], lastNoteLabelId := id,
         log := db.log + [NoteLabelCreated(nl, id)]), id)
  }

  /** updateConfig: overwrite the whole settings record. */
  function UpdateConfig(db: Db, s: Settings): Db {
    db.(settings := s, log := db.log + [ConfigUpdated(s)])
  }

  /** updateIsShowNotesCount and its siblings: overwrite one boolean setting. */
  function UpdateFlag(db: Db, flag: Flag, value: bool): Db {
    db.(settings := SetFlag(db.settings, flag, value), log := db.log + [FlagUpdated(flag, value)])
  }

  // ---- what each call preserves ----

  /** A create assigns an identifier no row had, and keeps the store well formed. */
  lemma {:induction false} CreateFolderKeeps(db: Db, f: Folder)
    requires f.id == 0
    ensures var (r, id) := CreateFolder(db, f);
      && FolderKeys(r.folders) == FolderKeys(db.folders) + [id]
      && (Valid(db) ==> Valid(r) && id !in FolderKeys(db.folders))
      && (Consistent(db) ==> Consistent(r))
  {
    var (r, id) := CreateFolder(db, f);
    assert FolderKeys(r.folders) == FolderKeys(db.folders) + [id];
    KeyColumnAppend(FolderKeys(db.folders), db.lastFolderId);
  }

  /**
   * An update keeps every identifier; the row carrying f's identifier, if any, becomes f
   * and every other row stays as it was.
   */
  lemma {:induction false} UpdateFolderKeeps(db: Db, f: Folder)
    ensures var r := UpdateFolder(db, f);
      && FolderKeys(r.folders) == FolderKeys(db.folders)
      && (f.id in FolderKeys(db.folders) ==> f in r.folders)
      && (forall g :: g in db.folders && g.id != f.id ==> g in r.folders)
      && (forall g :: g in r.folders ==> g == f || g in db.folders)
      && (Valid(db) ==> Valid(r))
      && (Consistent(db) ==> Consistent(r))
  {
    var r := UpdateFolder(db, f);
    assert FolderKeys(r.folders) == FolderKeys(db.folders);
    forall g | g in db.folders && g.id != f.id ensures g in r.folders {
      var i :| 0 <= i < |db.folders| && db.folders[i] == g;
      assert r.folders[i] == g;
    }
    if f.id in FolderKeys(db.folders) {
      var i :| 0 <= i < |db.folders| && FolderKeys(db.folders)[i] == f.id;
      assert r.folders[i] == f;
    }
  }

  lemma {:induction false} CreateNoteKeeps(db: Db, n: Note)
    requires n.id == 0
    ensures var (r, id) := CreateNote(db, n);
      && NoteKeys(r.notes) == NoteKeys(db.notes) + [id]
      && (Valid(db) ==> Valid(r) && id !in NoteKeys(db.notes))
      && (Consistent(db) && n.folderId in FolderKeys(db.folders) ==> Consistent(r))
  {
    var (r, id) := CreateNote(db, n);
    assert NoteKeys(r.notes) == NoteKeys(db.notes) + [id];
    KeyColumnAppend(NoteKeys(db.notes), db.lastNoteId);
  }

  lemma {:induction false} CreateLabelKeeps(db: Db, l: Label)
    requires l.id == 0
    ensures var (r, id) := CreateLabel(db, l);
      && LabelKeys(r.labels) == LabelKeys(db.labels) + [id]
      && (Valid(db) ==> Valid(r) && id !in LabelKeys(db.labels))
      && (Consistent(db) && l.folderId in FolderKeys(db.folders) ==> Consistent(r))
  {
    var (r, id) := CreateLabel(db, l);
    assert LabelKeys(r.labels) == LabelKeys(db.labels) + [id];
    KeyColumnAppend(LabelKeys(db.labels), db.lastLabelId);
  }

  lemma {:induction false} CreateNoteLabelKeeps(db: Db, nl: NoteLabel)
    requires nl.id == 0
    ensures var (r, id) := CreateNoteLabel(db, nl);
      && (Valid(db) ==> Valid(r))
      && (Consistent(db) && nl.noteId in NoteKeys(db.notes) && nl.labelId in LabelKeys(db.labels)
          ==> Consistent(r))
  {
    var (r, id) := CreateNoteLabel(db, nl);
    assert NoteLabelKeys(r.noteLabels) == NoteLabelKeys(db.noteLabels) + [id];
    KeyColumnAppend(NoteLabelKeys(db.noteLabels), db.lastNoteLabelId);
  }
}
